=== FILE: README.md ===
# arelis-backend core, modelled in Dafny

This project models the deterministic core of the arelis-backend FastAPI service and proves properties of it. It covers four areas:

- **RAG store** (`app/rag_store.py`). It covers the tokeniser, the integer bucket counts of the hashed bag-of-tokens embedding, and the keyword extractor with its stop list. It also covers the relevance gate that decides whether retrieved chunks are used. Finally it covers the bookkeeping of the vector index: chunk ids and metadata written by `index_pages`, the `where` delete of `delete_doc_index`, and the user filter and top-k cut of `retrieve_chunks`. The index is a map from chunk id to stored text and metadata. The text splitter, the hash function and the similarity ranking are parameters.
- **Billing** (`app/routers/billing.py`). It covers the M-Pesa number normaliser `_normalize_msisdn`, and the profile upsert of `set_mpesa` as an update of a map from user id to number.
- **Lawyer sessions** (`app/routers/sessions.py`). It covers `_parse_scheduled_at` and the record `book_session` builds. The two `strptime` calls follow the regular expressions CPython's `_strptime` builds for `%Y-%m-%d` and `%I:%M %p`:
  - alternatives are tried left to right, with backtracking;
  - then comes the "unconverted data remains" check;
  - then the calendar check of `datetime.date`;
  - finally `%I`/`%p` is converted to the 24-hour clock.
- **Knowledge base uploads** (`app/routers/kb.py`). It covers the file-name sanitiser `_safe_name`, the `.pdf` gate and the page numbering of `_extract_pdf_pages`. It also covers the effect of `upload_documents` on the index. pypdf is abstract: a file arrives as the list of per-page `extract_text()` results. The uuid4 document ids are a parameter.

Modules, one file each:
- `Wrappers` (Option, Result)
- `HttpErrors`
- `Text`: Python whitespace, `strip`, `lower`, `endswith`, `in` on strings
- `Decimal`: `str(int)` and digit values
- `RagTokens`, `RagIndex`, `RagGate`
- `Billing`, `Sessions`, `KnowledgeBase`

Python's `str.isspace` set is written out code point by code point. Python's floor `%` agrees with Dafny's `%` for the positive `dim`.

Two behaviours of the code are easy to miss:
- `retrieve_chunks` has no empty-query shortcut. It searches with whatever query it is given (app/rag_store.py:178-180).
- In "can you help", "help" has four letters and is not a stop word, so it survives as a keyword. The gate still stays closed, because one keyword can never reach the two hits it needs (`RagGate.GateRejectsCanYouHelp`).

## Model

| member | source | states |
|---|---|---|
| Text.Strip | app/rag_store.py:98 | `str.strip()`: the result is a contiguous slice of the input; everything cut off on either side is whitespace; the result neither starts nor ends with whitespace |
| Text.StripIdempotent | app/rag_store.py:98 | stripping twice is stripping once |
| Text.StripEmptyIff | app/rag_store.py:98-100 | a string strips to `""` exactly when it is all whitespace, which is the blank-chunk test of `index_pages` |
| Decimal.NatToStringRoundTrip | app/rag_store.py:101 | `str(ci)` of a natural number reads back as that number |
| Decimal.IntToStringInjective | app/rag_store.py:101 | different page numbers print differently, negative ones included |
| RagTokens.Runs | app/rag_store.py:13 | `re.findall(r"[a-zA-Z0-9]+", ...)`: every match is a non-empty run of ASCII letters and digits taken from the input |
| RagTokens.RunsOfWord | app/rag_store.py:13 | a string that is one maximal run is found as exactly that one match |
| RagTokens.RunsSplit | app/rag_store.py:13 | a non-word character separates: the matches of `a + [c] + b` are those of `a` followed by those of `b` |
| RagTokens.Tokenize | app/rag_store.py:12-13 | `_tokenize`: tokens are non-empty, lower-case `[a-z0-9]` only; `None` and `""` give no tokens |
| RagTokens.Bucket | app/rag_store.py:29 | `hash(t) % dim` always names a bucket in `[0, dim)` |
| RagTokens.EmbedCounts | app/rag_store.py:26-30 | the raw vector of `_embed` before normalisation: length `dim`; each bucket holds the number of tokens hashing to it; the bucket sum is the token count; no tokens gives the zero vector |
| RagTokens.SumIncrement | app/rag_store.py:30 | adding one to a single bucket adds one to the total |
| RagIndex.ChunkIdInjective | app/rag_store.py:101 | within one user and document, the id `user:doc:page:ci` determines both page and chunk index |
| RagIndex.IsBlankIff | app/rag_store.py:98-100 | a chunk is skipped exactly when it strips to the empty string |
| RagIndex.NonBlankIndices | app/rag_store.py:97-100 | the positions that survive the blank test: all in range, non-blank, strictly increasing, and none missing |
| RagIndex.PageRecords | app/rag_store.py:97-112 | one record per non-blank chunk of a page, each carrying the user, document, file name and page as metadata |
| RagIndex.PageRecordsComplete | app/rag_store.py:97-112 | every non-blank chunk at position `ci` is stored stripped under id `user:doc:page:ci`, with `ci` counted before blanks are dropped, so ids can have gaps |
| RagIndex.PageRecordsSound | app/rag_store.py:97-112 | every record of a page comes from a non-blank chunk at some position `ci`, under that position's id and with the stripped text |
| RagIndex.Upsert | app/rag_store.py:115 | `add_documents(docs, ids=ids)`: the keys become the old keys plus the batch ids; ids outside the batch keep their entries; with distinct ids every record is stored as given |
| RagIndex.IndexPages | app/rag_store.py:82-122 | `index_pages` returns the number of non-blank chunks over all pages; when that is 0 nothing is written; otherwise only the batch ids change |
| RagIndex.BatchLength | app/rag_store.py:114-122 | the number of records written equals the count returned |
| RagIndex.BatchIdsDistinct | app/rag_store.py:96-101 | pages with distinct page numbers yield pairwise distinct chunk ids |
| RagIndex.IndexPagesStoresBatch | app/rag_store.py:96-115 | with distinct page numbers, every record of the call is in the store afterwards as built |
| RagIndex.IndexPagesIdempotent | app/rag_store.py:82-122 | indexing the same pages twice leaves the store as indexing once, with the same count |
| RagIndex.UpsertIsUnion | app/rag_store.py:115 | writing a batch is overriding the store with the batch's last write per id |
| RagIndex.DeleteDocIndex | app/rag_store.py:125-128 | `delete_doc_index`: exactly the entries whose metadata names both the user and the document are removed; every other entry is unchanged |
| RagIndex.DeleteDocIndexIdempotent | app/rag_store.py:125-128 | deleting twice is deleting once; deleting a document with no entries changes nothing |
| RagIndex.DeleteUndoesIndex | app/rag_store.py:82-128 | indexing a document and then deleting it leaves the store as deleting alone would, provided no batch id held someone else's entry |
| RagIndex.OwnedRanked | app/rag_store.py:180 | the `filter={"user_id": ...}` of the search: an id is kept exactly when it is ranked, stored and owned by that user, and the kept ids are a subsequence of the ranking, so its order is preserved |
| RagIndex.RetrieveChunks | app/rag_store.py:178-192 | `retrieve_chunks` returns at most `k` chunks, exactly `min(k, matches)`, each built from a stored entry of the requesting user; chunk `i` is the text and metadata of the `i`-th best match of that user |
| RagIndex.RetrieveAfterDelete | app/rag_store.py:125-192 | once a document is deleted, retrieval for that user never returns a chunk of it |
| RagGate.KeywordsOf | app/rag_store.py:169-174 | the filter of `_keywords`: every kept token has length at least 4 and is not a stop word; each such token is kept as many times as it occurs and nothing else is kept |
| RagGate.KeywordsOfAppend | app/rag_store.py:169-174 | the filter keeps order: the keywords of `a + b` are those of `a` followed by those of `b` |
| RagGate.Keywords | app/rag_store.py:167-175 | `_keywords` returns at most 12 keywords, a prefix of all the keyword tokens in query order, and all of them when there are fewer than 12 |
| RagGate.Overlap | app/rag_store.py:204 | the per-chunk count is at most the number of keywords |
| RagGate.OverlapAtLeastTwo | app/rag_store.py:204-206 | the count reaches 2 exactly when two different positions of the keyword list occur in the text |
| RagGate.OverlapAtLeastOne | app/rag_store.py:204 | the count is positive exactly when some keyword occurs in the text |
| RagGate.BestOverlap | app/rag_store.py:201-205 | the running maximum bounds every chunk's count and is reached by one of them |
| RagGate.ShouldUseContext | app/rag_store.py:195-206 | `should_use_context` is false with no chunks or no keywords; otherwise it is true exactly when one of the first four chunks has a count of at least 2 |
| RagGate.GateIgnoresLaterChunks | app/rag_store.py:202 | chunks after the fourth never change the verdict |
| RagGate.GateIgnoresAppended | app/rag_store.py:202 | appending chunks to four or more never changes the verdict |
| RagGate.GateIff | app/rag_store.py:195-206 | the verdict holds exactly when a chunk among the first four contains two entries of the keyword list |
| RagGate.GateNeedsTwoKeywords | app/rag_store.py:198-206 | a query with fewer than two keywords never uses context |
| RagGate.GateCountsRepeatedKeyword | app/rag_store.py:204 | a keyword repeated in the query counts twice: one chunk containing it is enough |
| RagGate.GateRejectsCanYouHelp | app/rag_store.py:167-206 | "can you help" keeps only the keyword "help", so the gate is closed whatever the chunks |
| RagGate.GateAcceptsContractContract | app/rag_store.py:195-206 | "contract contract" against a chunk reading "Contract" opens the gate on the repeated keyword |
| Billing.KeepDigits | app/routers/billing.py:16 | removing non-digits leaves only digits and never lengthens the string |
| Billing.KeepDigitsAppend | app/routers/billing.py:16 | the removal works piecewise and keeps order: the digits of `a + b` are those of `a` followed by those of `b` |
| Billing.KeepDigitsCounts | app/routers/billing.py:16 | `re.sub(r"[^\d]", "", s)` keeps every digit as many times as it occurs in `s` and drops every other character |
| Billing.SeparatorsAreNotDigits | app/routers/billing.py:15-16 | removing whitespace and `+` first makes no difference once non-digits are removed |
| Billing.NormalizeMsisdn | app/routers/billing.py:14-30 | a success is 12 digits starting `2547`; a failure is 400 "M-Pesa number is required" when the input has no digit and 400 "Enter a valid Safaricom number (e.g. 0712 345 678)" otherwise |
| Billing.NormalizeMsisdnIff | app/routers/billing.py:18-30 | the result is `v` exactly for the three accepted shapes of the digits: `0` and nine more digits, `7` and eight more, or twelve digits starting `2547` |
| Billing.NormalizeMsisdnDependsOnDigits | app/routers/billing.py:15-16 | inputs with the same digits normalise alike |
| Billing.NormalizeMsisdnIdempotent | app/routers/billing.py:14-30 | normalising a normalised number returns it unchanged |
| Billing.SetMpesa | app/routers/billing.py:48-61 | the reply is exactly the normaliser's verdict; an invalid number leaves every profile unchanged and returns the normaliser's error; a valid one is stored and returned for the caller, creating or overwriting; other users' numbers are unchanged |
| Billing.SetMpesaIdempotent | app/routers/billing.py:48-61 | setting the same number twice is setting it once |
| Sessions.TwelveAlternatives | app/routers/sessions.py:16 | every match of the `%m` / `%I` pattern (`1[0-2]`, then `0[1-9]`, then `[1-9]`) has a value between 1 and 12 |
| Sessions.DayAlternatives | app/routers/sessions.py:16 | every match of the `%d` pattern, the space-padded day included, has a value between 1 and 31 |
| Sessions.MinuteAlternatives | app/routers/sessions.py:21 | every match of the `%M` pattern (`[0-5]\d`, then `\d`) has a value between 0 and 59 |
| Sessions.FirstAccepted | app/routers/sessions.py:16-21 | regex backtracking: a chosen alternative is one of the group's alternatives after which the rest of the pattern matches; when none is chosen, none lets the rest match |
| Sessions.FirstAcceptedIsFirst | app/routers/sessions.py:16-21 | the chosen alternative is the first in the regex's order after which the rest matches: no earlier alternative lets the rest match |
| Sessions.FirstHourIsFirst | app/routers/sessions.py:21 | the `%I` alternative chosen is the first in the regex's order that is followed by `:`, a minute group, whitespace and AM/PM; no earlier one is |
| Sessions.ParseDate | app/routers/sessions.py:16 | every date `strptime(date, "%Y-%m-%d")` accepts is a real calendar date with a year from 1 to 9999 |
| Sessions.ParseDateTextIff | app/routers/sessions.py:15-18 | `YYYY-MM-DD` with any two digits for the month and for the day is accepted exactly when it names a real date, and then as that date: months 00 and 13..99 and days 00 and 32..99 are refused, 29 February only in leap years, no year 0 |
| Sessions.TwelveOfDigits | app/routers/sessions.py:16 | on two digits reading `v`, the `%m` / `%I` group matches both digits as `v` exactly when `v` is 1..12; otherwise at most the first digit matches, as its own value |
| Sessions.MonthOfText | app/routers/sessions.py:16 | on two digits and a dash, the month group is chosen as both digits exactly when they read 1..12 and a day group follows the dash; otherwise no month is chosen |
| Sessions.DayOfText | app/routers/sessions.py:16 | on two digits reading `v`, the `%d` group matches both digits exactly when `v` is 1..31, and then reads `v` |
| Sessions.TwelveAlternativesSpell | app/routers/sessions.py:16-21 | every `%m` / `%I` match is one or two ASCII digits that read as the match's value |
| Sessions.DayAlternativesSpell | app/routers/sessions.py:16 | every `%d` match is one or two ASCII digits, or a space and one digit, that read as the match's value |
| Sessions.MinuteAlternativesSpell | app/routers/sessions.py:21 | every `%M` match is one or two ASCII digits that read as the match's value |
| Sessions.ParseDateSpelling | app/routers/sessions.py:15-18 | whatever is accepted has the `%Y-%m-%d` shape: four digits reading the year, `-`, one or two digits reading the month, `-`, and the day's one or two digits (or space and digit), with nothing before or after |
| Sessions.ParseDateRejectsTrailing | app/routers/sessions.py:15-18 | any text after a well-formed date is "unconverted data" and the date is refused |
| Sessions.ParseDateRoundTrip | app/routers/sessions.py:16 | every real date written as `YYYY-MM-DD` is read back as itself |
| Sessions.ParseDateAcceptsUnpadded | app/routers/sessions.py:16 | `%m` and `%d` take one digit too: `2024-1-5` is 5 January 2024 |
| Sessions.To24Hour | app/routers/sessions.py:21 | the `%I`/`%p` conversion gives an hour in 0..23 that agrees with the 12-hour reading modulo 12 and is 12 or later exactly for PM, so 12 AM is 0 and 12 PM is 12 |
| Sessions.ParseClock | app/routers/sessions.py:21 | every time `strptime(t, "%I:%M %p")` accepts has hour 0..23 and minute 0..59 |
| Sessions.ParseClockTextIff | app/routers/sessions.py:20-23 | `hh:mm AM` / `hh:mm PM` with any two digits for the hour and for the minute is accepted exactly when the hour is 1..12 and the minute 0..59, and then reads as the converted hour and that minute: hours 00 and 13..99 and minutes 60..99 are refused |
| Sessions.HourOfDigits | app/routers/sessions.py:21 | on two digits and `:`, an hour group is found exactly when the digits read 1..12 and a minute group, whitespace and AM/PM follow |
| Sessions.MinuteOfDigits | app/routers/sessions.py:21 | on two digits, a space and AM/PM, the minute group is found exactly when the digits read 0..59 |
| Sessions.ParseClockSpelling | app/routers/sessions.py:20-23 | whatever is accepted has the `%I:%M %p` shape: one or two digits reading 1..12, `:`, one or two digits reading the minute, whitespace, then AM or PM in either case, with nothing before or after; the hour is the 12-hour reading converted by AM/PM |
| Sessions.ClockAfterHourSpelling | app/routers/sessions.py:21 | what follows the hour's colon in an accepted time is the minute's digits, whitespace and AM/PM filling the rest of the text |
| Sessions.ParseClockRejectsLong | app/routers/sessions.py:20-23 | text that starts like `hh:mm AM` but goes on past the eighth character is refused |
| Sessions.ParseClockRejectsTrailing | app/routers/sessions.py:20-23 | any text after a well-formed 12-hour time is "unconverted data" and the time is refused |
| Sessions.ParseClockText | app/routers/sessions.py:21 | `hh:mm AM` and `hh:mm PM` read as the hour converted by `To24Hour` and the given minute |
| Sessions.ParseClockRoundTrip | app/routers/sessions.py:21 | every time of day written on the 12-hour clock is read back as itself |
| Sessions.ParseClockAcceptsLowerCase | app/routers/sessions.py:21 | `%p` ignores case and `%I` takes one digit: `9:05 pm` is 21:05 |
| Sessions.ParseClockRejects24Hour | app/routers/sessions.py:20-23 | `13:00 PM` is not a 12-hour time and is refused |
| Sessions.ParseScheduledAt | app/routers/sessions.py:14-25 | a success is a real date with hour 0..23, minute 0..59 and second 0; a bad date gives the date error even when the time is bad too; a good date with a bad stripped time gives the time error; when both parse, the result is that date at that hour and minute |
| Sessions.ParseScheduledAtRoundTrip | app/routers/sessions.py:14-25 | a real date written `YYYY-MM-DD` with a time of day written on the 12-hour clock is scheduled at exactly that date, hour and minute |
| Sessions.ParseScheduledAtStripsTime | app/routers/sessions.py:21 | surrounding whitespace on the time never changes the outcome |
| Sessions.BookSession | app/routers/sessions.py:48-61 | a booking fails exactly when parsing fails, with the same error; otherwise it is pending, for the caller, at the parsed time, with the topic stripped, notes `None` exactly when none or empty were given, and non-empty notes kept stripped |
| Sessions.BookSessionBlankNotes | app/routers/sessions.py:59 | notes of whitespace only are truthy, so they are kept, as `""` |
| KnowledgeBase.SafeName | app/routers/kb.py:24-26 | at most 120 characters, no `/` or `\`, no leading whitespace; `None` and `""` give "document"; otherwise the first 120 characters of the stripped name with both separators turned into `_` |
| KnowledgeBase.CleanNameIsReplaceThenCut | app/routers/kb.py:25-26 | cutting after the two `replace` calls is the same as sanitising the stripped name character by character up to 120 |
| KnowledgeBase.SafeNameBlank | app/routers/kb.py:25 | a name of whitespace only becomes `""`, not "document", because the fallback is applied before the strip |
| KnowledgeBase.SafeNameKeepsSafe | app/routers/kb.py:24-26 | a short name with no separators and no surrounding whitespace is kept as it is |
| KnowledgeBase.DefaultNameIsClean | app/routers/kb.py:24-26 | the fallback "document" is unchanged by the cleaning, so returning it before the cleaning gives the same name as cleaning it would |
| KnowledgeBase.IsPdfNameIff | app/routers/kb.py:78 | the gate passes exactly when the name ends in `.` followed by p, d and f in either case |
| KnowledgeBase.LongNameGateIff | app/routers/kb.py:74-79 | when the stripped name is longer than 120 characters, the upload passes the gate exactly when its characters 116 to 119 read ".pdf" in any case; the real suffix is never looked at |
| KnowledgeBase.LongPdfNameRejected | app/routers/kb.py:74-79 | a name of 120 or more `a`s followed by ".pdf" loses its suffix to the cut and is refused |
| KnowledgeBase.ExtractPages | app/routers/kb.py:29-37 | pages are numbered 1..n in reader order, and missing text reads as `""` |
| KnowledgeBase.ExtractedPagesHaveDistinctIds | app/routers/kb.py:97-103 | extracted page numbers are distinct, so the chunk ids written for one document never collide |
| KnowledgeBase.UploadLoopAsWritten | app/routers/kb.py:73-103 | the loop succeeds exactly when every sanitised name passes the gate, listing one document per file in order; otherwise it fails with 400 "Only PDF uploads are supported for now" |
| KnowledgeBase.UploadAsWritten | app/routers/kb.py:60-109 | no files gives 400 "No files uploaded" with nothing written; otherwise the upload succeeds exactly when every name passes the gate |
| KnowledgeBase.UploadAsWrittenLeavesOrphans | app/routers/kb.py:73-105 | a PDF with text followed by a refused file: the request fails, yet the index holds chunks of a document that was never recorded |
| KnowledgeBase.Upload | app/routers/kb.py:60-109 | the corrected upload: a refused request leaves the index as it was; the responses are those of the original; a success lists one document per file, each with a name that passes the gate |
| KnowledgeBase.UploadAgreesWithAsWritten | app/routers/kb.py:60-109 | the correction answers every request as the original does, and leaves the same index whenever every file is a PDF |

## Left out

- `chunk_text` (app/rag_store.py:73-79) wraps LangChain's `RecursiveCharacterTextSplitter`, which is not part of this model. It is the parameter `split`, and no size or overlap bound is claimed.
- The L2 normalisation of `_embed` (app/rag_store.py:31-35) and the similarity scores are floating point. The model stops at the integer bucket counts, and `RagChunk` has no score.
- Python's `hash` is salted per process. It is the uninterpreted parameter `hash`, so no stability across processes is claimed.
- Chroma is left out: the global store, embedding on write, `persist()` and its swallowed errors (app/rag_store.py:53-70, 114-120, 129-132). The similarity order of `similarity_search_with_score` is the parameter `ranked`.
- RagIndex.Upsert: a batch that repeats an id is written last-wins. Chroma refuses such a batch instead. `index_pages` only builds one when two pages share a page number, and `_extract_pdf_pages` never produces that.
- RagIndex.RetrieveChunks: `k` is a natural number. Chroma's handling of `k <= 0` is not modelled. The metadata `page` is always present, because `index_pages` always sets it, so the `None` branch of line 188 is not modelled.
- RagIndex.RetrieveChunks: an empty query goes to the index like any other, as the code does. No "empty query returns nothing" shortcut is modelled.
- RagTokens.EmbedCounts: requires `dim > 0`. With `dim == 0` Python raises `ZeroDivisionError` as soon as there is a token, and the constructor's default is 384.
- `str.lower()` is modelled on ASCII letters only. Non-ASCII letters that Python lowers to ASCII, such as the Kelvin sign, are outside the model.
- Regex `\d` is modelled as ASCII digits, in the billing normaliser and in `strptime`. Other Unicode decimal digits, which Python's `\d` also matches, are outside the model.
- `%p` is matched as the C-locale "AM"/"PM". Other locales are out. So are `strptime` directives and leniencies beyond the `%Y`, `%m`, `%d`, `%I`, `%M` and `%p` patterns named above.
- The database and the file system are out of the model: SQLAlchemy queries, commits and ordering; the stored file, its size and content type; the list endpoints; and `delete_document` beyond the index delete it calls. In the upload model a `Success` result stands for the commit.
- The chat router, `app/main.py`, `app/routers/auth.py`, `app/models.py`, `app/schemas.py` and `app/config.py` are out of scope. They hold I/O, network calls, JWT and password handling, and declarations.

## Findings

| source | as written | input that shows it | evidently intended | confidence | as-written member | corrected member |
|---|---|---|---|---|---|---|
| app/routers/kb.py:73-105 | Each file is checked and then indexed before the next file is looked at. A later non-PDF file raises after earlier files are already in the vector index, and the database is never committed. | Two files: `a.pdf` whose pages have text, then `b.txt` | A refused upload leaves the index unchanged. Otherwise the index holds chunks of a document with no database row, which retrieval serves and `delete_document` cannot reach. | medium; not executed | KnowledgeBase.UploadAsWrittenLeavesOrphans | KnowledgeBase.Upload |

=== FILE: billing.dfy ===
/**
 * The M-Pesa number handling of the billing router (app/routers/billing.py):
 * `_normalize_msisdn`, and `set_mpesa` / `get_mpesa` over a map from user id
 * to the stored number.
 */
module Billing {
  import opened Wrappers
  import opened HttpErrors
  import Text
  import Decimal

  const RequiredDetail: string := "M-Pesa number is required"
  const InvalidDetail: string := "Enter a valid Safaricom number (e.g. 0712 345 678)"

  /** `re.sub(r"\s+", "", s)` */
  function RemoveSpaces(s: string): (r: string)
    decreases |s|
  {
    if |s| == 0 then "" else (if Text.IsSpace(s[0]) then "" else [s[0]]) + RemoveSpaces(s[1..])
  }

  /** `s.replace("+", "")` */
  function RemovePlus(s: string): (r: string)
    decreases |s|
  {
    if |s| == 0 then "" else (if s[0] == '+' then "" else [s[0]]) + RemovePlus(s[1..])
  }

  /** `re.sub(r"[^\d]", "", s)`: the digits of `s`, in order. */
  function KeepDigits(s: string): (r: string)
    ensures Decimal.AllDigits(r)
    ensures |r| <= |s|
    decreases |s|
  {
    if |s| == 0 then "" else (if Decimal.IsDigit(s[0]) then [s[0]] else "") + KeepDigits(s[1..])
  }

  /**
   * Exactly the digits are kept, each as often as it occurs, and every other
   * character is dropped; `KeepDigitsAppend` fixes their order.
   */
  lemma {:induction false} KeepDigitsCounts(s: string)
    ensures forall c :: multiset(KeepDigits(s))[c] == if Decimal.IsDigit(c) then multiset(s)[c] else 0
    decreases |s|
  {
    if |s| > 0 {
      KeepDigitsCounts(s[1..]);
      assert s == [s[0]] + s[1..];
    }
  }

  /** The digit characters of the raw input (`None` has none). */
  function Digits(raw: Option<string>): string {
    KeepDigits(raw.GetOr(""))
  }

  /** Dropping whitespace and `+` first does not change which digits remain. */
  lemma {:induction false} SeparatorsAreNotDigits(s: string)
    ensures KeepDigits(RemovePlus(RemoveSpaces(s))) == KeepDigits(s)
    decreases |s|
  {
    if |s| > 0 {
      SeparatorsAreNotDigits(s[1..]);
      var t := RemoveSpaces(s[1..]);
      KeepDigitsAppend(if Text.IsSpace(s[0]) then "" else [s[0]], t);
      RemovePlusAppend(if Text.IsSpace(s[0]) then "" else [s[0]], t);
      var u := if Text.IsSpace(s[0]) then "" else [s[0]];
      KeepDigitsAppend(RemovePlus(u), RemovePlus(t));
      KeepDigitsAppend([s[0]], s[1..]);
      assert [s[0]] + s[1..] == s;
    }
  }

  lemma {:induction false} KeepDigitsAppend(a: string, b: string)
    ensures KeepDigits(a + b) == KeepDigits(a) + KeepDigits(b)
    decreases |a|
  {
    if |a| > 0 {
      assert (a + b)[1..] == a[1..] + b;
      KeepDigitsAppend(a[1..], b);
    } else {
      assert a + b == b;
    }
  }

  lemma {:induction false} RemovePlusAppend(a: string, b: string)
    ensures RemovePlus(a + b) == RemovePlus(a) + RemovePlus(b)
    decreases |a|
  {
    if |a| > 0 {
      assert (a + b)[1..] == a[1..] + b;
      RemovePlusAppend(a[1..], b);
    } else {
      assert a + b == b;
    }
  }

  /** A string of digits keeps all its characters. */
  lemma {:induction false} KeepDigitsOfDigits(s: string)
    requires Decimal.AllDigits(s)
    ensures KeepDigits(s) == s
    decreases |s|
  {
    if |s| > 0 {
      KeepDigitsOfDigits(s[1..]);
    }
  }

  /**
   * `_normalize_msisdn`: the canonical `2547XXXXXXXX` form of the number,
   * or the 400 error the router raises.
   */
  function NormalizeMsisdn(raw: Option<string>): (r: Result<string, HttpError>)
    ensures r.Success? ==>
      |r.value| == 12 && Text.StartsWith(r.value, "2547") && Decimal.AllDigits(r.value)
    ensures r.Failure? ==>
      r.error == BadRequest(if Digits(raw) == "" then RequiredDetail else InvalidDetail)
  {
    var text := raw.GetOr("");
    SeparatorsAreNotDigits(text);
    var s := KeepDigits(RemovePlus(RemoveSpaces(text)));
    if s == "" then Failure(BadRequest(RequiredDetail))
    else
      var canonical :=
        if Text.StartsWith(s, "0") && |s| == 10 then "254" + s[1..]
        else if |s| == 9 && Text.StartsWith(s, "7") then "254" + s
        else s;
      if |canonical| == 12 && Text.StartsWith(canonical, "2547") then Success(canonical)
      else Failure(BadRequest(InvalidDetail))
  }

  /**
   * The three accepted shapes of the digits (the router's comment:
   * 07XXXXXXXX, 7XXXXXXXX, 2547XXXXXXXX) and the number each becomes.
   */
  ghost predicate AcceptedShape(d: string, v: string) {
    || (|d| == 10 && Text.StartsWith(d, "07") && v == "254" + d[1..])
    || (|d| == 9 && Text.StartsWith(d, "7") && v == "254" + d)
    || (|d| == 12 && Text.StartsWith(d, "2547") && v == d)
  }

  /** The number is accepted, as `v`, exactly when its digits have an accepted shape. */
  lemma NormalizeMsisdnIff(raw: Option<string>, v: string)
    ensures NormalizeMsisdn(raw) == Success(v) <==> AcceptedShape(Digits(raw), v)
  {
    var d := Digits(raw);
    SeparatorsAreNotDigits(raw.GetOr(""));
    if |d| == 10 && Text.StartsWith(d, "0") {
      var c := "254" + d[1..];
      assert c[..4] == ['2', '5', '4', d[1]];
      assert d[..2] == ['0', d[1]];
      assert Text.StartsWith(c, "2547") <==> d[1] == '7';
      assert Text.StartsWith(d, "07") <==> d[1] == '7';
    } else if |d| == 9 && Text.StartsWith(d, "7") {
      assert ("254" + d)[..4] == ['2', '5', '4', d[0]];
    } else if |d| == 10 {
      assert d[..2] == [d[0], d[1]];
      assert !Text.StartsWith(d, "07");
    }
  }

  /** Only the digits matter: spaces, `+` and any other character are discarded. */
  lemma NormalizeMsisdnDependsOnDigits(a: Option<string>, b: Option<string>)
    requires Digits(a) == Digits(b)
    ensures NormalizeMsisdn(a) == NormalizeMsisdn(b)
  {
    SeparatorsAreNotDigits(a.GetOr(""));
    SeparatorsAreNotDigits(b.GetOr(""));
  }

  /** Normalising a normalised number gives it back. */
  lemma NormalizeMsisdnIdempotent(raw: Option<string>)
    requires NormalizeMsisdn(raw).Success?
    ensures NormalizeMsisdn(Some(NormalizeMsisdn(raw).value)) == NormalizeMsisdn(raw)
  {
    var v := NormalizeMsisdn(raw).value;
    KeepDigitsOfDigits(v);
    SeparatorsAreNotDigits(v);
  }

  /** The stored numbers: `BillingProfile.mpesa_msisdn` by user id. */
  type Profiles = map<string, string>

  /** Lookup helper: the number stored for a user, `None` when the user has no profile. */
  function GetMpesa(profiles: Profiles, userId: string): Option<string> {
    if userId in profiles then Some(profiles[userId]) else None
  }

  /**
   * `set_mpesa`: the profiles after the request and the response. The number
   * is validated before any profile is looked at, so a rejected number leaves
   * every profile as it was; an accepted one creates or overwrites the
   * caller's profile only, and the response is what was stored.
   */
  function SetMpesa(profiles: Profiles, userId: string, raw: Option<string>): (result: (Profiles, Result<string, HttpError>))
    ensures result.1 == NormalizeMsisdn(raw)
    ensures result.1.Failure? <==> NormalizeMsisdn(raw).Failure?
    ensures result.1.Failure? ==> result.0 == profiles && result.1.error == NormalizeMsisdn(raw).error
    ensures result.1.Success? ==> GetMpesa(result.0, userId) == Some(result.1.value)
    ensures forall u :: u != userId ==> GetMpesa(result.0, u) == GetMpesa(profiles, u)
  {
    match NormalizeMsisdn(raw)
    case Failure(e) => (profiles, Failure(e))
    case Success(msisdn) => (profiles[userId := msisdn], Success(msisdn))
  }

  /** Submitting the same number twice leaves what submitting it once left. */
  lemma SetMpesaIdempotent(profiles: Profiles, userId: string, raw: Option<string>)
    ensures SetMpesa(SetMpesa(profiles, userId, raw).0, userId, raw) == SetMpesa(profiles, userId, raw)
  {
    match NormalizeMsisdn(raw)
    case Failure(_) =>
    case Success(msisdn) =>
      assert profiles[userId := msisdn][userId := msisdn] == profiles[userId := msisdn];
  }
}

=== FILE: decimal.dfy ===
/**
 * Decimal text of integers as Python's `str(int)` / f-string writes it, and
 * the value of a run of ASCII digits as `int(...)` reads it back.
 */
module Decimal {

  predicate IsDigit(c: char) {
    '0' <= c <= '9'
  }

  predicate AllDigits(s: string) {
    forall i :: 0 <= i < |s| ==> IsDigit(s[i])
  }

  function DigitChar(d: nat): (c: char)
    requires d < 10
    ensures IsDigit(c)
  {
    ('0' as int + d) as char
  }

  function DigitValue(c: char): (d: nat)
    requires IsDigit(c)
    ensures d < 10 && DigitChar(d) == c
  {
    c as int - '0' as int
  }

  /** The value of a string of ASCII digits, most significant first. */
  function DigitsValue(s: string): nat
    requires AllDigits(s)
    decreases |s|
  {
    if |s| == 0 then 0 else DigitsValue(s[..|s| - 1]) * 10 + DigitValue(s[|s| - 1])
  }

  /** One or two digits read as the digit, or as ten times the first plus the second. */
  lemma DigitsValueShort(s: string)
    requires AllDigits(s) && 1 <= |s| <= 2
    ensures DigitsValue(s) == if |s| == 1 then DigitValue(s[0]) else 10 * DigitValue(s[0]) + DigitValue(s[1])
  {
    assert s[..|s| - 1][..0] == [];
    if |s| == 2 {
      assert s[..1][..0] == [];
    }
  }

  /** `str(n)` for `n >= 0`: no leading zeros, `"0"` for zero. */
  function NatToString(n: nat): (s: string)
    ensures |s| >= 1 && AllDigits(s)
    ensures n >= 10 <==> |s| >= 2
    decreases n
  {
    if n < 10 then [DigitChar(n)] else NatToString(n / 10) + [DigitChar(n % 10)]
  }

  /** `str(i)`: a minus sign in front of negative numbers. */
  function IntToString(i: int): (s: string)
    ensures |s| >= 1
    ensures forall k :: 0 <= k < |s| ==> s[k] != ':'
  {
    if i < 0 then "-" + NatToString(-i) else NatToString(i)
  }

  /** The text starts with a minus sign exactly for negative numbers. */
  lemma IntToStringSign(i: int)
    ensures IntToString(i)[0] == '-' <==> i < 0
  {
    if i >= 0 {
      assert IsDigit(NatToString(i)[0]);
    }
  }

  /** Reading back what `NatToString` wrote gives the number. */
  lemma {:induction false} NatToStringRoundTrip(n: nat)
    ensures DigitsValue(NatToString(n)) == n
    decreases n
  {
    if n >= 10 {
      var s := NatToString(n);
      NatToStringRoundTrip(n / 10);
      assert s[..|s| - 1] == NatToString(n / 10);
    }
  }

  lemma NatToStringInjective(a: nat, b: nat)
    requires NatToString(a) == NatToString(b)
    ensures a == b
  {
    NatToStringRoundTrip(a);
    NatToStringRoundTrip(b);
  }

  /** Distinct integers have distinct decimal text. */
  lemma IntToStringInjective(a: int, b: int)
    requires IntToString(a) == IntToString(b)
    ensures a == b
  {
    var s := IntToString(a);
    IntToStringSign(a);
    IntToStringSign(b);
    if a < 0 && b < 0 {
      assert NatToString(-a) == s[1..] == NatToString(-b);
      NatToStringInjective(-a, -b);
    } else if a >= 0 && b >= 0 {
      NatToStringInjective(a, b);
    }
  }
}

=== FILE: http_error.dfy ===
/** The `HTTPException` values the routers raise. */
module HttpErrors {

  datatype HttpError = HttpError(status: int, detail: string)

  /** `HTTPException(status_code=400, detail=detail)` */
  function BadRequest(detail: string): HttpError {
    HttpError(400, detail)
  }
}

=== FILE: kb.dfy ===
/**
 * The knowledge-base upload router (app/routers/kb.py): the file-name
 * sanitiser `_safe_name`, the `.pdf` gate of `upload_documents`, the page
 * numbering of `_extract_pdf_pages`, and the effect of an upload on the RAG
 * index. pypdf is abstract: a file arrives as the list of what
 * `page.extract_text()` returned for each page. The document ids that
 * `uuid.uuid4()` draws are a parameter, one per file.
 */
module KnowledgeBase {
  import opened Wrappers
  import opened HttpErrors
  import Text
  import RagIndex

  const MaxNameLength: nat := 120
  const DefaultName: string := "document"
  const NoFilesDetail: string := "No files uploaded"
  const PdfOnlyDetail: string := "Only PDF uploads are supported for now"

  /** Path separators become `_`. */
  function Sanitize(c: char): char {
    if c == '/' || c == '\\' then '_' else c
  }

  /** Strip, replace the separators, cut to 120 characters. */
  function CleanName(given: string): (r: string)
    ensures |r| <= MaxNameLength
    ensures forall i :: 0 <= i < |r| ==> r[i] != '/' && r[i] != '\\'
    ensures |r| > 0 ==> !Text.IsSpace(r[0])
    ensures var s := Text.Strip(given);
      && |r| == (if |s| <= MaxNameLength then |s| else MaxNameLength)
      && forall i :: 0 <= i < |r| ==> r[i] == Sanitize(s[i])
  {
    var s := Text.Strip(given);
    var n := if |s| <= MaxNameLength then |s| else MaxNameLength;
    var r := seq(n, i requires 0 <= i < n => Sanitize(s[i]));
    assert n > 0 ==> r[0] == Sanitize(s[0]) && !Text.IsSpace(s[0]);
    r
  }

  /** The cleaning is the two `replace` calls followed by the cut, in the order the source applies them. */
  lemma CleanNameIsReplaceThenCut(given: string)
    ensures var replaced := Text.ReplaceChar(Text.ReplaceChar(Text.Strip(given), '\\', '_'), '/', '_');
      CleanName(given) == if |replaced| <= MaxNameLength then replaced else replaced[..MaxNameLength]
  {
  }

  /**
   * `_safe_name`: fall back to "document" for a missing or empty name, strip,
   * replace both path separators with `_`, and cut to 120 characters.
   * The fallback comes before the strip, so a name of spaces becomes "".
   * "document" is left as it is by the cleaning (`DefaultNameIsClean`), so the fallback is returned directly.
   */
  function SafeName(name: Option<string>): (r: string)
    ensures |r| <= MaxNameLength
    ensures forall i :: 0 <= i < |r| ==> r[i] != '/' && r[i] != '\\'
    ensures |r| > 0 ==> !Text.IsSpace(r[0])
    ensures name.None? || name.value == [] ==> r == DefaultName
    ensures name.Some? && name.value != "" ==>
      var s := Text.Strip(name.value);
      && |r| == (if |s| <= MaxNameLength then |s| else MaxNameLength)
      && forall i :: 0 <= i < |r| ==> r[i] == Sanitize(s[i])
  {
    DefaultNameFacts(DefaultName);
    match name
    case None => DefaultName
    case Some(given) => if given == [] then DefaultName else CleanName(given)
  }

  lemma DefaultNameFacts(d: string)
    requires d == DefaultName
    ensures |d| <= MaxNameLength && !Text.IsSpace(d[0])
    ensures forall i :: 0 <= i < |d| ==> d[i] != '/' && d[i] != '\\'
  {
  }

  /** The fallback name survives the cleaning unchanged. */
  lemma DefaultNameIsClean(d: string)
    requires d == DefaultName
    ensures CleanName(d) == d
  {
    Text.StripUnchanged(d);
  }

  /** A name of whitespace only is kept as present, so it is stripped to "" instead of the default. */
  lemma SafeNameBlank(name: string)
    requires |name| > 0 && Text.AllSpace(name)
    ensures SafeName(Some(name)) == ""
  {
    Text.StripEmptyIff(name);
  }

  /** A name that is already safe is kept as it is. */
  lemma SafeNameKeepsSafe(name: string)
    requires 0 < |name| <= MaxNameLength
    requires !Text.IsSpace(name[0]) && !Text.IsSpace(name[|name| - 1])
    requires forall i :: 0 <= i < |name| ==> name[i] != '/' && name[i] != '\\'
    ensures SafeName(Some(name)) == name
  {
    Text.StripUnchanged(name);
  }

  /** `filename.lower().endswith(".pdf")` */
  predicate IsPdfName(name: string) {
    Text.EndsWith(Text.Lower(name), ".pdf")
  }

  /** The gate reads the last four characters, ignoring the case of the letters. */
  lemma IsPdfNameIff(name: string)
    ensures IsPdfName(name) <==>
      && |name| >= 4
      && name[|name| - 4] == '.'
      && name[|name| - 3] in "pP"
      && name[|name| - 2] in "dD"
      && name[|name| - 1] in "fF"
  {
    var low := Text.Lower(name);
    if |name| >= 4 {
      assert low[|low| - 4..] == [low[|low| - 4], low[|low| - 3], low[|low| - 2], low[|low| - 1]];
    }
  }

  /**
   * The gate looks at the sanitised name. When the stripped name is longer
   * than 120 characters, the cut keeps its first 120, so the upload passes
   * exactly when characters 116 to 119 read ".pdf" in any case; the real
   * suffix is never looked at.
   */
  lemma LongNameGateIff(name: string)
    requires |Text.Strip(name)| > MaxNameLength
    ensures var s := Text.Strip(name);
      IsPdfName(SafeName(Some(name))) <==>
        && s[116] == '.'
        && s[117] in "pP"
        && s[118] in "dD"
        && s[119] in "fF"
  {
    assert name != [];
    CutNameGate(SafeName(Some(name)), Text.Strip(name));
  }

  /** A sanitised cut of 120 characters passes the gate exactly when its source's characters 116 to 119 read ".pdf". */
  lemma CutNameGate(r: string, s: string)
    requires |r| == MaxNameLength < |s|
    requires forall i :: 0 <= i < |r| ==> r[i] == Sanitize(s[i])
    ensures IsPdfName(r) <==> s[116] == '.' && s[117] in "pP" && s[118] in "dD" && s[119] in "fF"
  {
    assert r[116] == Sanitize(s[116]) && r[117] == Sanitize(s[117]);
    assert r[118] == Sanitize(s[118]) && r[119] == Sanitize(s[119]);
    IsPdfNameIff(r);
  }

  /** A name of 120 or more `a`s followed by ".pdf" loses its suffix to the cut and is refused. */
  lemma LongPdfNameRejected(stem: string)
    requires |stem| >= MaxNameLength
    requires forall i :: 0 <= i < |stem| ==> stem[i] == 'a'
    ensures !IsPdfName(SafeName(Some(stem + ".pdf")))
  {
    var name := stem + ".pdf";
    assert name[0] == 'a' && name[|name| - 1] == 'f' && name[116] == 'a';
    StripAName(name);
    LongNameGateIff(name);
  }

  lemma StripAName(name: string)
    requires |name| > 0 && name[0] == 'a' && name[|name| - 1] == 'f'
    ensures Text.Strip(name) == name
  {
    Text.StripUnchanged(name);
  }

  /** `_extract_pdf_pages`: pages numbered from 1 in reader order, missing text read as "". */
  function ExtractPages(texts: seq<Option<string>>): (pages: seq<(int, string)>)
    ensures |pages| == |texts|
    ensures forall i :: 0 <= i < |texts| ==> pages[i].0 == i + 1 && pages[i].1 == texts[i].GetOr("")
  {
    seq(|texts|, i requires 0 <= i < |texts| => (i + 1, texts[i].GetOr("")))
  }

  /**
   * Page numbers are distinct, so the chunk ids `index_pages` writes for one
   * uploaded document never collide.
   */
  lemma ExtractedPagesHaveDistinctIds(userId: string, docId: string, filename: string,
                                      texts: seq<Option<string>>, split: string -> seq<string>)
    ensures RagIndex.DistinctPages(ExtractPages(texts))
    ensures RagIndex.IdsDistinct(RagIndex.Batch(userId, docId, filename, ExtractPages(texts), split))
  {
    RagIndex.BatchIdsDistinct(userId, docId, filename, ExtractPages(texts), split);
  }

  /** An uploaded file: its client-side name and the text pypdf extracts per page. */
  datatype UploadFile = UploadFile(filename: Option<string>, pageTexts: seq<Option<string>>)

  /** The part of `KnowledgeBaseDocument` that the upload decides. */
  datatype KbDocument = KbDocument(id: string, userId: string, filename: string)

  /** The sanitised name of `f` passes the `.pdf` gate. */
  predicate PassesGate(f: UploadFile) {
    IsPdfName(SafeName(f.filename))
  }

  /** Every file passes the gate, checked from the first file on. */
  predicate AllPdf(files: seq<UploadFile>)
    decreases |files|
  {
    |files| == 0 || (PassesGate(files[0]) && AllPdf(files[1..]))
  }

  lemma {:induction false} AllPdfIff(files: seq<UploadFile>)
    ensures AllPdf(files) <==> forall i :: 0 <= i < |files| ==> PassesGate(files[i])
    decreases |files|
  {
    if |files| > 0 {
      AllPdfIff(files[1..]);
      assert forall i :: 0 < i < |files| ==> files[i] == files[1..][i - 1];
    }
  }

  /** The documents an upload of `files` creates, in order. */
  predicate CreatedDocuments(docs: seq<KbDocument>, userId: string, files: seq<UploadFile>, docIds: seq<string>)
    requires |docIds| == |files|
  {
    |docs| == |files|
    && forall i :: 0 <= i < |files| ==> docs[i] == KbDocument(docIds[i], userId, SafeName(files[i].filename))
  }

  /** Index one file's pages under its document id; the count is not used by the router. */
  function IndexFile(store: RagIndex.Store, userId: string, f: UploadFile, docId: string,
                     split: string -> seq<string>): RagIndex.Store
  {
    RagIndex.IndexPages(store, userId, docId, SafeName(f.filename), ExtractPages(f.pageTexts), split).0
  }

  /**
   * The loop of `upload_documents` as written: each file is checked and then
   * indexed before the next is looked at. A refusal raises, so nothing is
   * committed to the database, but the index keeps what earlier files wrote.
   */
  function UploadLoopAsWritten(store: RagIndex.Store, userId: string, files: seq<UploadFile>,
                               docIds: seq<string>, split: string -> seq<string>)
    : (r: (RagIndex.Store, Result<seq<KbDocument>, HttpError>))
    requires |docIds| == |files|
    ensures r.1.Success? <==> AllPdf(files)
    ensures r.1.Success? ==> CreatedDocuments(r.1.value, userId, files, docIds)
    ensures r.1.Failure? ==> r.1.error == BadRequest(PdfOnlyDetail)
    decreases |files|
  {
    if |files| == 0 then (store, Success([]))
    else
      var name := SafeName(files[0].filename);
      if !PassesGate(files[0]) then (store, Failure(BadRequest(PdfOnlyDetail)))
      else
        var s1 := IndexFile(store, userId, files[0], docIds[0], split);
        var (s2, rest) := UploadLoopAsWritten(s1, userId, files[1..], docIds[1..], split);
        (s2, if rest.Success? then Success([KbDocument(docIds[0], userId, name)] + rest.value) else rest)
  }

  /** `upload_documents` as written. */
  function UploadAsWritten(store: RagIndex.Store, userId: string, files: seq<UploadFile>,
                           docIds: seq<string>, split: string -> seq<string>)
    : (r: (RagIndex.Store, Result<seq<KbDocument>, HttpError>))
    requires |docIds| == |files|
    ensures |files| == 0 ==> r == (store, Failure(BadRequest(NoFilesDetail)))
    ensures |files| > 0 ==> (r.1.Success? <==> AllPdf(files))
  {
    if |files| == 0 then (store, Failure(BadRequest(NoFilesDetail)))
    else UploadLoopAsWritten(store, userId, files, docIds, split)
  }

  /** After indexing a document with at least one chunk the index holds an entry of it. */
  lemma IndexedDocumentPresent(store: RagIndex.Store, userId: string, docId: string, filename: string,
                               pages: seq<(int, string)>, split: string -> seq<string>)
    requires RagIndex.PagesChunkCount(pages, split) > 0
    ensures var s := RagIndex.IndexPages(store, userId, docId, filename, pages, split).0;
            exists id :: id in s && RagIndex.Owns(s[id], userId, docId)
  {
    var batch := RagIndex.Batch(userId, docId, filename, pages, split);
    RagIndex.BatchLength(userId, docId, filename, pages, split);
    RagIndex.UpsertIsUnion(store, batch);
    RagIndex.LastWritesFrom(batch);
    RagIndex.BatchOwned(userId, docId, filename, pages, split);
    var m := RagIndex.LastWrites(batch);
    var id := batch[0].id;
    assert id in RagIndex.BatchIds(batch);
    var k :| 0 <= k < |batch| && m[id] == batch[k].entry;
    assert (store + m)[id] == batch[k].entry;
  }

  /**
   * The orphan: a PDF with text followed by a file the gate refuses. The
   * request fails and no document is recorded, yet the index now holds chunks
   * of the first document, which retrieval serves and no delete can reach.
   */
  lemma UploadAsWrittenLeavesOrphans(store: RagIndex.Store, userId: string, files: seq<UploadFile>,
                                     docIds: seq<string>, split: string -> seq<string>)
    requires |files| == 2 && |docIds| == 2
    requires PassesGate(files[0]) && !PassesGate(files[1])
    requires RagIndex.PagesChunkCount(ExtractPages(files[0].pageTexts), split) > 0
    requires forall id :: id in store ==> !RagIndex.Owns(store[id], userId, docIds[0])
    ensures var r := UploadAsWritten(store, userId, files, docIds, split);
      && r.1 == Failure(BadRequest(PdfOnlyDetail))
      && (exists id :: id in r.0 && RagIndex.Owns(r.0[id], userId, docIds[0]))
      && r.0 != store
  {
    var name := SafeName(files[0].filename);
    IndexedDocumentPresent(store, userId, docIds[0], name, ExtractPages(files[0].pageTexts), split);
    var s1 := IndexFile(store, userId, files[0], docIds[0], split);
    assert UploadLoopAsWritten(s1, userId, files[1..], docIds[1..], split) == (s1, Failure(BadRequest(PdfOnlyDetail)));
  }

  /** Index every file in order and list the documents created. */
  function IndexAll(store: RagIndex.Store, userId: string, files: seq<UploadFile>,
                    docIds: seq<string>, split: string -> seq<string>)
    : (r: (RagIndex.Store, seq<KbDocument>))
    requires |docIds| == |files|
    ensures CreatedDocuments(r.1, userId, files, docIds)
    decreases |files|
  {
    if |files| == 0 then (store, [])
    else
      var s1 := IndexFile(store, userId, files[0], docIds[0], split);
      var (s2, docs) := IndexAll(s1, userId, files[1..], docIds[1..], split);
      (s2, [KbDocument(docIds[0], userId, SafeName(files[0].filename))] + docs)
  }

  /**
   * `upload_documents` with every name checked before anything is written:
   * a refused request leaves the index as it was.
   */
  function Upload(store: RagIndex.Store, userId: string, files: seq<UploadFile>,
                  docIds: seq<string>, split: string -> seq<string>)
    : (r: (RagIndex.Store, Result<seq<KbDocument>, HttpError>))
    requires |docIds| == |files|
    ensures r.1.Failure? ==> r.0 == store
    ensures |files| == 0 ==> r.1 == Failure(BadRequest(NoFilesDetail))
    ensures |files| > 0 ==> (r.1.Success? <==> AllPdf(files))
    ensures |files| > 0 && r.1.Failure? ==> r.1.error == BadRequest(PdfOnlyDetail)
    ensures r.1.Success? ==> CreatedDocuments(r.1.value, userId, files, docIds)
    ensures r.1.Success? ==> forall i :: 0 <= i < |r.1.value| ==> IsPdfName(r.1.value[i].filename)
  {
    if |files| == 0 then (store, Failure(BadRequest(NoFilesDetail)))
    else if !AllPdf(files) then (store, Failure(BadRequest(PdfOnlyDetail)))
    else
      AllPdfIff(files);
      var (s, docs) := IndexAll(store, userId, files, docIds, split);
      (s, Success(docs))
  }

  lemma {:induction false} LoopAgreesWithIndexAll(store: RagIndex.Store, userId: string, files: seq<UploadFile>,
                                                  docIds: seq<string>, split: string -> seq<string>)
    requires |docIds| == |files| && AllPdf(files)
    ensures UploadLoopAsWritten(store, userId, files, docIds, split).0 == IndexAll(store, userId, files, docIds, split).0
    decreases |files|
  {
    if |files| > 0 {
      var s1 := IndexFile(store, userId, files[0], docIds[0], split);
      LoopAgreesWithIndexAll(s1, userId, files[1..], docIds[1..], split);
    }
  }

  /**
   * The correction changes no response: both versions answer every request
   * alike, and they leave the same index whenever every file is a PDF.
   */
  lemma UploadAgreesWithAsWritten(store: RagIndex.Store, userId: string, files: seq<UploadFile>,
                                  docIds: seq<string>, split: string -> seq<string>)
    requires |docIds| == |files|
    ensures Upload(store, userId, files, docIds, split).1 == UploadAsWritten(store, userId, files, docIds, split).1
    ensures AllPdf(files) ==> Upload(store, userId, files, docIds, split) == UploadAsWritten(store, userId, files, docIds, split)
  {
    var a := Upload(store, userId, files, docIds, split).1;
    var b := UploadAsWritten(store, userId, files, docIds, split).1;
    if |files| > 0 {
      if a.Success? && b.Success? {
        CreatedDocumentsUnique(a.value, b.value, userId, files, docIds);
      }
      if AllPdf(files) {
        LoopAgreesWithIndexAll(store, userId, files, docIds, split);
      }
    }
  }

  lemma CreatedDocumentsUnique(d1: seq<KbDocument>, d2: seq<KbDocument>, userId: string,
                               files: seq<UploadFile>, docIds: seq<string>)
    requires |docIds| == |files|
    requires CreatedDocuments(d1, userId, files, docIds) && CreatedDocuments(d2, userId, files, docIds)
    ensures d1 == d2
  {
  }
}

=== FILE: rag_gate.dfy ===
/**
 * The keyword relevance gate of the RAG store (app/rag_store.py: `_STOP`,
 * `_keywords`, `should_use_context`): retrieved chunks are used only when one
 * of the first four shares at least two query keywords.
 */
module RagGate {
  import opened Wrappers
  import Text
  import RagTokens
  import RagIndex

  /** `_STOP` */
  const Stop: set<string> := {
    "the", "and", "for", "with", "that", "this", "from", "are", "was", "were",
    "you", "your", "into", "about", "can", "will", "what", "how", "why", "when",
    "where", "which", "their", "they", "them", "not", "but", "also"
  }

  /** At most this many keywords are kept (`kws[:12]`). */
  const MaxKeywords: nat := 12

  /** Only this many leading chunks are inspected (`chunks[:4]`). */
  const InspectedChunks: nat := 4

  /** A chunk must contain this many keywords (`best >= 2`). */
  const MinOverlap: nat := 2

  /** A token `_keywords` keeps: at least four characters and not a stop word. */
  predicate IsKeyword(t: string) {
    |t| >= 4 && t !in Stop
  }

  /**
   * The keyword tokens of `tokens`, in order, repeats included: each keyword
   * occurs as often as in `tokens`, and nothing else occurs.
   */
  function KeywordsOf(tokens: seq<string>): (r: seq<string>)
    ensures forall i :: 0 <= i < |r| ==> IsKeyword(r[i])
    ensures forall t :: multiset(r)[t] == if IsKeyword(t) then multiset(tokens)[t] else 0
    decreases |tokens|
  {
    if |tokens| == 0 then []
    else
      var init := tokens[..|tokens| - 1];
      var last := tokens[|tokens| - 1];
      assert tokens == init + [last];
      KeywordsOf(init) + (if IsKeyword(last) then [last] else [])
  }

  /** Keyword selection is the same run over each part of a token list. */
  lemma {:induction false} KeywordsOfAppend(a: seq<string>, b: seq<string>)
    ensures KeywordsOf(a + b) == KeywordsOf(a) + KeywordsOf(b)
    decreases |b|
  {
    if |b| > 0 {
      var init := b[..|b| - 1];
      assert (a + b)[..|a + b| - 1] == a + init;
      assert (a + b)[|a + b| - 1] == b[|b| - 1];
      KeywordsOfAppend(a, init);
    } else {
      assert a + b == a;
    }
  }

  /**
   * `_keywords(query)`: the first twelve keyword tokens of the query, in
   * order; all of them when there are fewer.
   */
  function Keywords(query: string): (r: seq<string>)
    ensures |r| <= MaxKeywords
    ensures forall i :: 0 <= i < |r| ==> IsKeyword(r[i])
    ensures r <= KeywordsOf(RagTokens.Tokenize(Some(query)))
    ensures |r| == MaxKeywords || r == KeywordsOf(RagTokens.Tokenize(Some(query)))
  {
    var kws := KeywordsOf(RagTokens.Tokenize(Some(query)));
    if |kws| <= MaxKeywords then kws else kws[..MaxKeywords]
  }

  /**
   * `sum(1 for kw in kws if kw in t)`: the entries of the keyword list that
   * occur in `t`, counted with multiplicity.
   */
  function Overlap(kws: seq<string>, t: string): (n: nat)
    ensures n <= |kws|
    decreases |kws|
  {
    if |kws| == 0 then 0
    else Overlap(kws[..|kws| - 1], t) + (if Text.Contains(t, kws[|kws| - 1]) then 1 else 0)
  }

  /** Two entries, at different positions of the list, both occur in `t`. */
  ghost predicate TwoHits(kws: seq<string>, t: string) {
    exists i, j :: 0 <= i < j < |kws| && Text.Contains(t, kws[i]) && Text.Contains(t, kws[j])
  }

  /** The overlap reaches two exactly when two list entries occur. */
  lemma {:induction false} OverlapAtLeastTwo(kws: seq<string>, t: string)
    ensures Overlap(kws, t) >= 2 <==> TwoHits(kws, t)
    decreases |kws|
  {
    if |kws| > 0 {
      var init := kws[..|kws| - 1];
      var last := |kws| - 1;
      OverlapAtLeastTwo(init, t);
      OverlapAtLeastOne(init, t);
      if TwoHits(kws, t) && !TwoHits(init, t) {
        var i, j :| 0 <= i < j < |kws| && Text.Contains(t, kws[i]) && Text.Contains(t, kws[j]);
        assert j == last && kws[i] == init[i];
      }
      if TwoHits(init, t) {
        var i, j :| 0 <= i < j < |init| && Text.Contains(t, init[i]) && Text.Contains(t, init[j]);
        assert kws[i] == init[i] && kws[j] == init[j];
      }
      if Overlap(init, t) >= 1 && Text.Contains(t, kws[last]) {
        var i :| 0 <= i < |init| && Text.Contains(t, init[i]);
        assert kws[i] == init[i];
      }
    }
  }

  lemma {:induction false} OverlapAtLeastOne(kws: seq<string>, t: string)
    ensures Overlap(kws, t) >= 1 <==> exists i :: 0 <= i < |kws| && Text.Contains(t, kws[i])
    decreases |kws|
  {
    if |kws| > 0 {
      var init := kws[..|kws| - 1];
      OverlapAtLeastOne(init, t);
      if exists i :: 0 <= i < |init| && Text.Contains(t, init[i]) {
        var i :| 0 <= i < |init| && Text.Contains(t, init[i]);
        assert kws[i] == init[i];
      }
      if exists i :: 0 <= i < |kws| && Text.Contains(t, kws[i]) {
        var i :| 0 <= i < |kws| && Text.Contains(t, kws[i]);
        if i < |init| { assert kws[i] == init[i]; }
      }
    }
  }

  /** The overlap of one chunk: its text lower-cased first. */
  function ChunkOverlap(kws: seq<string>, c: RagIndex.RagChunk): nat {
    Overlap(kws, Text.Lower(c.text))
  }

  /** The `best` of the loop: the largest overlap among `chunks`, 0 for none. */
  function BestOverlap(kws: seq<string>, chunks: seq<RagIndex.RagChunk>): (best: nat)
    ensures forall i :: 0 <= i < |chunks| ==> ChunkOverlap(kws, chunks[i]) <= best
    ensures |chunks| == 0 ==> best == 0
    ensures |chunks| > 0 ==> exists i :: 0 <= i < |chunks| && best == ChunkOverlap(kws, chunks[i])
    decreases |chunks|
  {
    if |chunks| == 0 then 0
    else
      var init := chunks[..|chunks| - 1];
      var here := ChunkOverlap(kws, chunks[|chunks| - 1]);
      var prev := BestOverlap(kws, init);
      assert forall i :: 0 <= i < |init| ==> chunks[i] == init[i];
      if prev < here then here else prev
  }

  /**
   * `should_use_context`: true exactly when one of the first four chunks
   * contains at least two entries of the query's keyword list.
   */
  function ShouldUseContext(query: string, chunks: seq<RagIndex.RagChunk>): (r: bool)
    ensures |chunks| == 0 ==> !r
    ensures Keywords(query) == [] ==> !r
    ensures r <==> exists i :: 0 <= i < |chunks| && i < InspectedChunks
                     && ChunkOverlap(Keywords(query), chunks[i]) >= MinOverlap
  {
    if |chunks| == 0 then false
    else
      var kws := Keywords(query);
      if |kws| == 0 then false
      else
        var head := if |chunks| <= InspectedChunks then chunks else chunks[..InspectedChunks];
        assert forall i :: 0 <= i < |head| ==> head[i] == chunks[i];
        BestOverlap(kws, head) >= MinOverlap
  }

  /** Chunks after the fourth never change the verdict. */
  lemma GateIgnoresLaterChunks(query: string, a: seq<RagIndex.RagChunk>, b: seq<RagIndex.RagChunk>)
    requires |a| >= InspectedChunks && |b| >= InspectedChunks
    requires a[..InspectedChunks] == b[..InspectedChunks]
    ensures ShouldUseContext(query, a) == ShouldUseContext(query, b)
  {
    assert forall i :: 0 <= i < InspectedChunks ==> a[i] == a[..InspectedChunks][i] == b[i];
  }

  /** Appending chunks to a list that already has four changes nothing. */
  lemma GateIgnoresAppended(query: string, a: seq<RagIndex.RagChunk>, extra: seq<RagIndex.RagChunk>)
    requires |a| >= InspectedChunks
    ensures ShouldUseContext(query, a + extra) == ShouldUseContext(query, a)
  {
    assert (a + extra)[..InspectedChunks] == a[..InspectedChunks];
    GateIgnoresLaterChunks(query, a + extra, a);
  }

  /** The verdict in terms of keyword positions: two entries of the list hit one chunk. */
  lemma GateIff(query: string, chunks: seq<RagIndex.RagChunk>)
    ensures ShouldUseContext(query, chunks) <==>
      exists i :: 0 <= i < |chunks| && i < InspectedChunks && TwoHits(Keywords(query), Text.Lower(chunks[i].text))
  {
    var kws := Keywords(query);
    forall i | 0 <= i < |chunks|
      ensures ChunkOverlap(kws, chunks[i]) >= MinOverlap <==> TwoHits(kws, Text.Lower(chunks[i].text))
    {
      OverlapAtLeastTwo(kws, Text.Lower(chunks[i].text));
    }
  }

  /** A query with fewer than two keywords never passes the gate. */
  lemma GateNeedsTwoKeywords(query: string, chunks: seq<RagIndex.RagChunk>)
    requires |Keywords(query)| < 2
    ensures !ShouldUseContext(query, chunks)
  {
    GateIff(query, chunks);
  }

  /**
   * Hits are counted over the keyword list, not over distinct words: a query
   * word that occurs twice and appears in an inspected chunk passes the gate.
   */
  lemma GateCountsRepeatedKeyword(query: string, chunks: seq<RagIndex.RagChunk>, i: nat, j: nat, c: nat)
    requires i < j < |Keywords(query)| && Keywords(query)[i] == Keywords(query)[j]
    requires c < |chunks| && c < InspectedChunks
    requires Text.Contains(Text.Lower(chunks[c].text), Keywords(query)[i])
    ensures ShouldUseContext(query, chunks)
  {
    GateIff(query, chunks);
  }

  // Two worked queries.

  /** Two words separated by one space are found as those two words. */
  lemma RunsOfSpaced2(s: string, a: string, b: string)
    requires RagTokens.IsWord(a) && RagTokens.IsWord(b)
    requires s == a + [' '] + b
    ensures RagTokens.Runs(s) == [a, b]
  {
    RagTokens.RunsSplit(a, ' ', b);
    RagTokens.RunsOfWord(a);
    RagTokens.RunsOfWord(b);
  }

  /** Three words separated by single spaces are found as those three words. */
  lemma RunsOfSpaced3(s: string, a: string, b: string, c: string)
    requires RagTokens.IsWord(a) && RagTokens.IsWord(b) && RagTokens.IsWord(c)
    requires s == a + [' '] + b + [' '] + c
    ensures RagTokens.Runs(s) == [a, b, c]
  {
    assert s == a + [' '] + (b + [' '] + c);
    RagTokens.RunsSplit(a, ' ', b + [' '] + c);
    RunsOfSpaced2(b + [' '] + c, b, c);
    RagTokens.RunsOfWord(a);
  }

  lemma TokenizeCanYouHelp(query: string)
    requires query == "can you help"
    ensures RagTokens.Tokenize(Some(query)) == ["can", "you", "help"]
  {
    assert Text.Lower(query) == query;
    RunsOfSpaced3(query, "can", "you", "help");
  }

  lemma KeywordsOfCanYouHelp()
    ensures KeywordsOf(["can", "you", "help"]) == ["help"]
  {
  }

  /**
   * "can you help" keeps one keyword, "help" (four letters, not a stop word),
   * so it never passes the gate, whatever was retrieved.
   */
  lemma GateRejectsCanYouHelp(query: string, chunks: seq<RagIndex.RagChunk>)
    requires query == "can you help"
    ensures Keywords(query) == ["help"]
    ensures !ShouldUseContext(query, chunks)
  {
    TokenizeCanYouHelp(query);
    KeywordsOfCanYouHelp();
    GateNeedsTwoKeywords(query, chunks);
  }

  lemma TokenizeContractContract(query: string)
    requires query == "contract contract"
    ensures RagTokens.Tokenize(Some(query)) == ["contract", "contract"]
  {
    assert Text.Lower(query) == query;
    RunsOfSpaced2(query, "contract", "contract");
  }

  lemma KeywordsOfContractContract()
    ensures KeywordsOf(["contract", "contract"]) == ["contract", "contract"]
  {
  }

  lemma KeywordsContractContract(query: string)
    requires query == "contract contract"
    ensures Keywords(query) == ["contract", "contract"]
  {
    TokenizeContractContract(query);
    KeywordsOfContractContract();
  }

  /**
   * One distinct word, said twice, passes against a chunk that mentions it
   * once: the two hits are two entries of the keyword list.
   */
  lemma GateAcceptsContractContract(query: string, chunk: RagIndex.RagChunk)
    requires query == "contract contract" && chunk.text == "Contract"
    ensures ShouldUseContext(query, [chunk])
  {
    KeywordsContractContract(query);
    MentionsContract(chunk.text);
    GateCountsRepeatedKeyword(query, [chunk], 0, 1, 0);
  }

  /** "Contract" lowers to "contract", so it contains the keyword. */
  lemma MentionsContract(t: string)
    requires t == "Contract"
    ensures Text.Contains(Text.Lower(t), "contract")
  {
    var w := Text.Lower(t);
    assert w[0] == 'c';
    assert w[1] == 'o' && w[2] == 'n' && w[3] == 't';
    assert w[4] == 'r' && w[5] == 'a' && w[6] == 'c' && w[7] == 't';
    assert w[0..8] == "contract";
    assert Text.OccursAt(w, "contract", 0);
  }
}

=== FILE: rag_index.dfy ===
/**
 * The bookkeeping of the RAG store around its vector index
 * (app/rag_store.py: `index_pages`, `delete_doc_index`, `retrieve_chunks`).
 * The index is a map from chunk id to the stored text and metadata; the
 * embedding vectors, the similarity ranking and the text splitter are
 * abstract (the ranking and the splitter are parameters).
 */
module RagIndex {
  import opened Wrappers
  import Text
  import Decimal

  /** The metadata `index_pages` attaches to every chunk. */
  datatype Metadata = Metadata(userId: string, docId: string, filename: string, page: int)

  /** What the index keeps under one id (the vector is derived from `text`). */
  datatype Entry = Entry(text: string, meta: Metadata)

  type Store = map<string, Entry>

  /** One document handed to `add_documents`, with its id. */
  datatype Record = Record(id: string, entry: Entry)

  /** `RagChunk` as `retrieve_chunks` builds it (the similarity score is left out). */
  datatype RagChunk = RagChunk(text: string, docId: string, filename: string, page: Option<int>)

  /** `f"{user_id}:{doc_id}:{page_num}:{ci}"` */
  function ChunkId(userId: string, docId: string, page: int, ci: nat): string {
    userId + ":" + docId + ":" + Decimal.IntToString(page) + ":" + Decimal.NatToString(ci)
  }

  /** The record queued for chunk `ci` of page `page`, already stripped. */
  function ChunkRecord(userId: string, docId: string, filename: string, page: int, ci: nat, text: string): Record {
    Record(ChunkId(userId, docId, page, ci), Entry(text, Metadata(userId, docId, filename, page)))
  }

  /** Two ids of the same user and document differ whenever page or chunk index differ. */
  lemma ChunkIdInjective(userId: string, docId: string, p1: int, c1: nat, p2: int, c2: nat)
    requires ChunkId(userId, docId, p1, c1) == ChunkId(userId, docId, p2, c2)
    ensures p1 == p2 && c1 == c2
  {
    var head := userId + ":" + docId + ":";
    var x1, x2 := Decimal.IntToString(p1), Decimal.IntToString(p2);
    var y1, y2 := Decimal.NatToString(c1), Decimal.NatToString(c2);
    assert ChunkId(userId, docId, p1, c1) == head + (x1 + ":" + y1);
    assert ChunkId(userId, docId, p2, c2) == head + (x2 + ":" + y2);
    assert x1 + ":" + y1 == x2 + ":" + y2 by {
      assert (head + (x1 + ":" + y1))[|head|..] == x1 + ":" + y1;
      assert (head + (x2 + ":" + y2))[|head|..] == x2 + ":" + y2;
    }
    SplitAtFirstColon(x1, y1, x2, y2);
    Decimal.IntToStringInjective(p1, p2);
    Decimal.NatToStringInjective(c1, c2);
  }

  /** Splitting at the first ':' is unambiguous when the heads have no ':'. */
  lemma SplitAtFirstColon(x1: string, y1: string, x2: string, y2: string)
    requires forall k :: 0 <= k < |x1| ==> x1[k] != ':'
    requires forall k :: 0 <= k < |x2| ==> x2[k] != ':'
    requires x1 + ":" + y1 == x2 + ":" + y2
    ensures x1 == x2 && y1 == y2
  {
    var s := x1 + ":" + y1;
    assert s[|x1|] == ':';
    assert s[|x2|] == ':';
    assert |x1| == |x2|;
    assert x1 == s[..|x1|] == x2;
    assert y1 == s[|x1| + 1..] == y2;
  }

  /**
   * A chunk that `index_pages` skips because nothing is left after `strip()`;
   * by `IsBlankIff` these are exactly the all-whitespace chunks.
   */
  predicate IsBlank(chunk: string) {
    Text.AllSpace(chunk)
  }

  lemma IsBlankIff(chunk: string)
    ensures IsBlank(chunk) <==> Text.Strip(chunk) == ""
  {
    Text.StripEmptyIff(chunk);
  }

  /** How many chunks survive the blank filter: the reference count. */
  function NonBlankCount(chunks: seq<string>): nat
    decreases |chunks|
  {
    if |chunks| == 0 then 0
    else NonBlankCount(chunks[..|chunks| - 1]) + (if IsBlank(chunks[|chunks| - 1]) then 0 else 1)
  }

  /**
   * The positions `ci` in the splitter's output of the chunks that are kept.
   * Positions are counted before blanks are dropped, so they can have gaps.
   */
  function NonBlankIndices(chunks: seq<string>): (r: seq<nat>)
    ensures |r| == NonBlankCount(chunks)
    ensures forall k :: 0 <= k < |r| ==> r[k] < |chunks| && !IsBlank(chunks[r[k]])
    ensures forall k, l :: 0 <= k < l < |r| ==> r[k] < r[l]
    ensures forall j :: 0 <= j < |chunks| && !IsBlank(chunks[j]) ==> j in r
    decreases |chunks|
  {
    if |chunks| == 0 then []
    else
      var last := |chunks| - 1;
      var init := chunks[..last];
      var prev := NonBlankIndices(init);
      assert forall j :: 0 <= j < last ==> chunks[j] == init[j];
      if IsBlank(chunks[last]) then prev
      else
        var r := prev + [last];
        assert forall k :: 0 <= k < |prev| ==> r[k] == prev[k] < last;
        r
  }

  /** The records one page contributes, in splitter order. */
  function PageRecords(userId: string, docId: string, filename: string, page: int, chunks: seq<string>): (r: seq<Record>)
    ensures |r| == NonBlankCount(chunks)
    ensures forall k :: 0 <= k < |r| ==> r[k].entry.meta == Metadata(userId, docId, filename, page)
  {
    var idx := NonBlankIndices(chunks);
    seq(|idx|, k requires 0 <= k < |idx| =>
      ChunkRecord(userId, docId, filename, page, idx[k], Text.Strip(chunks[idx[k]])))
  }

  /** Every non-blank chunk is queued, stripped, under its own position. */
  lemma PageRecordsComplete(userId: string, docId: string, filename: string, page: int, chunks: seq<string>, ci: nat)
    requires ci < |chunks| && !IsBlank(chunks[ci])
    ensures ChunkRecord(userId, docId, filename, page, ci, Text.Strip(chunks[ci]))
              in PageRecords(userId, docId, filename, page, chunks)
  {
    var idx := NonBlankIndices(chunks);
    var k :| 0 <= k < |idx| && idx[k] == ci;
    assert PageRecords(userId, docId, filename, page, chunks)[k]
        == ChunkRecord(userId, docId, filename, page, ci, Text.Strip(chunks[ci]));
  }

  /** Every queued record is a non-blank chunk, stripped, under its own position. */
  lemma PageRecordsSound(userId: string, docId: string, filename: string, page: int, chunks: seq<string>, k: nat)
    requires k < |PageRecords(userId, docId, filename, page, chunks)|
    ensures exists ci ::
              && 0 <= ci < |chunks|
              && !IsBlank(chunks[ci])
              && PageRecords(userId, docId, filename, page, chunks)[k]
                 == ChunkRecord(userId, docId, filename, page, ci, Text.Strip(chunks[ci]))
  {
    var idx := NonBlankIndices(chunks);
    assert PageRecords(userId, docId, filename, page, chunks)[k]
        == ChunkRecord(userId, docId, filename, page, idx[k], Text.Strip(chunks[idx[k]]));
  }

  /** All records of one `index_pages` call, page by page. */
  function Batch(userId: string, docId: string, filename: string, pages: seq<(int, string)>,
                 split: string -> seq<string>): seq<Record>
    decreases |pages|
  {
    if |pages| == 0 then []
    else PageRecords(userId, docId, filename, pages[0].0, split(pages[0].1))
         + Batch(userId, docId, filename, pages[1..], split)
  }

  /** Non-blank chunks over all pages: what `index_pages` reports. */
  function PagesChunkCount(pages: seq<(int, string)>, split: string -> seq<string>): nat
    decreases |pages|
  {
    if |pages| == 0 then 0 else NonBlankCount(split(pages[0].1)) + PagesChunkCount(pages[1..], split)
  }

  function BatchIds(batch: seq<Record>): set<string> {
    set k | 0 <= k < |batch| :: batch[k].id
  }

  predicate IdsDistinct(batch: seq<Record>) {
    forall k, l :: 0 <= k < l < |batch| ==> batch[k].id != batch[l].id
  }

  /** `add_documents(docs, ids=ids)`: write each record in turn, overwriting by id. */
  function Upsert(store: Store, batch: seq<Record>): (r: Store)
    ensures r.Keys == store.Keys + BatchIds(batch)
    ensures forall id :: id in store && id !in BatchIds(batch) ==> r[id] == store[id]
    ensures IdsDistinct(batch) ==> forall k :: 0 <= k < |batch| ==> r[batch[k].id] == batch[k].entry
    decreases |batch|
  {
    if |batch| == 0 then store
    else
      var r := Upsert(store[batch[0].id := batch[0].entry], batch[1..]);
      assert BatchIds(batch) == {batch[0].id} + BatchIds(batch[1..]) by {
        forall id | id in BatchIds(batch) ensures id in {batch[0].id} + BatchIds(batch[1..]) {
          var k :| 0 <= k < |batch| && batch[k].id == id;
          if k > 0 { assert batch[1..][k - 1].id == id; }
        }
      }
      r
  }

  /**
   * `index_pages`: the store after the call and the number of chunks indexed.
   * Nothing is written when no chunk survives.
   */
  function IndexPages(store: Store, userId: string, docId: string, filename: string,
                      pages: seq<(int, string)>, split: string -> seq<string>): (result: (Store, nat))
    ensures result.1 == PagesChunkCount(pages, split)
    ensures result.1 == 0 ==> result.0 == store
    ensures result.0.Keys == store.Keys + BatchIds(Batch(userId, docId, filename, pages, split))
    ensures forall id :: id in store && id !in BatchIds(Batch(userId, docId, filename, pages, split))
              ==> result.0[id] == store[id]
  {
    var batch := Batch(userId, docId, filename, pages, split);
    BatchLength(userId, docId, filename, pages, split);
    if |batch| == 0 then (store, 0) else (Upsert(store, batch), |batch|)
  }

  lemma {:induction false} BatchLength(userId: string, docId: string, filename: string,
                                       pages: seq<(int, string)>, split: string -> seq<string>)
    ensures |Batch(userId, docId, filename, pages, split)| == PagesChunkCount(pages, split)
    decreases |pages|
  {
    if |pages| > 0 {
      BatchLength(userId, docId, filename, pages[1..], split);
    }
  }

  /** The page numbers of `pages` are pairwise different. */
  predicate DistinctPages(pages: seq<(int, string)>) {
    forall i, j :: 0 <= i < j < |pages| ==> pages[i].0 != pages[j].0
  }

  /** Every record of a batch carries an id built from its own page number. */
  ghost predicate IdMatchesPage(userId: string, docId: string, r: Record) {
    exists ci: nat :: r.id == ChunkId(userId, docId, r.entry.meta.page, ci)
  }

  lemma {:induction false} BatchShape(userId: string, docId: string, filename: string,
                                      pages: seq<(int, string)>, split: string -> seq<string>)
    ensures forall k :: 0 <= k < |Batch(userId, docId, filename, pages, split)| ==>
      IdMatchesPage(userId, docId, Batch(userId, docId, filename, pages, split)[k])
      && exists i :: 0 <= i < |pages| && Batch(userId, docId, filename, pages, split)[k].entry.meta.page == pages[i].0
    decreases |pages|
  {
    if |pages| > 0 {
      var head := PageRecords(userId, docId, filename, pages[0].0, split(pages[0].1));
      var tail := Batch(userId, docId, filename, pages[1..], split);
      BatchShape(userId, docId, filename, pages[1..], split);
      var b := Batch(userId, docId, filename, pages, split);
      forall k | 0 <= k < |b|
        ensures IdMatchesPage(userId, docId, b[k]) && exists i :: 0 <= i < |pages| && b[k].entry.meta.page == pages[i].0
      {
        if k < |head| {
          var idx := NonBlankIndices(split(pages[0].1));
          assert b[k] == head[k];
          assert b[k].id == ChunkId(userId, docId, pages[0].0, idx[k]);
        } else {
          assert b[k] == tail[k - |head|];
          var i :| 0 <= i < |pages[1..]| && tail[k - |head|].entry.meta.page == pages[1..][i].0;
          assert pages[1..][i] == pages[i + 1];
        }
      }
    }
  }

  lemma PageRecordsDistinct(userId: string, docId: string, filename: string, page: int, chunks: seq<string>)
    ensures IdsDistinct(PageRecords(userId, docId, filename, page, chunks))
  {
    var idx := NonBlankIndices(chunks);
    var r := PageRecords(userId, docId, filename, page, chunks);
    forall k, l | 0 <= k < l < |r| ensures r[k].id != r[l].id {
      if r[k].id == r[l].id {
        ChunkIdInjective(userId, docId, page, idx[k], page, idx[l]);
      }
    }
  }

  /**
   * When every page number occurs once, as `_extract_pdf_pages` guarantees,
   * no record of a call shadows another: every id is written exactly once.
   */
  lemma {:induction false} BatchIdsDistinct(userId: string, docId: string, filename: string,
                                            pages: seq<(int, string)>, split: string -> seq<string>)
    requires DistinctPages(pages)
    ensures IdsDistinct(Batch(userId, docId, filename, pages, split))
    decreases |pages|
  {
    if |pages| > 0 {
      var head := PageRecords(userId, docId, filename, pages[0].0, split(pages[0].1));
      var tail := Batch(userId, docId, filename, pages[1..], split);
      assert DistinctPages(pages[1..]) by {
        forall i, j | 0 <= i < j < |pages[1..]| ensures pages[1..][i].0 != pages[1..][j].0 {
          assert pages[1..][i] == pages[i + 1] && pages[1..][j] == pages[j + 1];
        }
      }
      BatchIdsDistinct(userId, docId, filename, pages[1..], split);
      PageRecordsDistinct(userId, docId, filename, pages[0].0, split(pages[0].1));
      BatchShape(userId, docId, filename, pages[1..], split);
      var b := head + tail;
      forall k, l | 0 <= k < l < |b| ensures b[k].id != b[l].id {
        if k < |head| && l >= |head| {
          var t := tail[l - |head|];
          assert b[l] == t;
          var i :| 0 <= i < |pages[1..]| && t.entry.meta.page == pages[1..][i].0;
          assert pages[1..][i] == pages[i + 1];
          var c2: nat :| t.id == ChunkId(userId, docId, t.entry.meta.page, c2);
          var idx := NonBlankIndices(split(pages[0].1));
          if b[k].id == b[l].id {
            ChunkIdInjective(userId, docId, pages[0].0, idx[k], t.entry.meta.page, c2);
          }
        } else if k >= |head| {
          assert b[k] == tail[k - |head|] && b[l] == tail[l - |head|];
        }
      }
    }
  }

  /**
   * With distinct page numbers, after `index_pages` every queued record is
   * stored exactly as queued.
   */
  lemma IndexPagesStoresBatch(store: Store, userId: string, docId: string, filename: string,
                              pages: seq<(int, string)>, split: string -> seq<string>)
    requires DistinctPages(pages)
    ensures forall r :: r in Batch(userId, docId, filename, pages, split) ==>
      r.id in IndexPages(store, userId, docId, filename, pages, split).0
      && IndexPages(store, userId, docId, filename, pages, split).0[r.id] == r.entry
  {
    BatchIdsDistinct(userId, docId, filename, pages, split);
  }

  /** Re-ingesting the same document overwrites: a second call changes nothing. */
  lemma IndexPagesIdempotent(store: Store, userId: string, docId: string, filename: string,
                             pages: seq<(int, string)>, split: string -> seq<string>)
    ensures var (s1, n1) := IndexPages(store, userId, docId, filename, pages, split);
            IndexPages(s1, userId, docId, filename, pages, split) == (s1, n1)
  {
    var batch := Batch(userId, docId, filename, pages, split);
    if |batch| > 0 {
      UpsertTwice(store, batch);
    }
  }

  lemma {:induction false} UpsertTwice(store: Store, batch: seq<Record>)
    ensures Upsert(Upsert(store, batch), batch) == Upsert(store, batch)
  {
    UpsertIsUnion(store, batch);
    UpsertIsUnion(Upsert(store, batch), batch);
  }

  /** The last record written under each id of a batch. */
  function LastWrites(batch: seq<Record>): (m: map<string, Entry>)
    ensures m.Keys == BatchIds(batch)
    decreases |batch|
  {
    if |batch| == 0 then map[]
    else
      var init := batch[..|batch| - 1];
      var m := LastWrites(init)[batch[|batch| - 1].id := batch[|batch| - 1].entry];
      assert BatchIds(batch) == BatchIds(init) + {batch[|batch| - 1].id} by {
        forall id | id in BatchIds(batch) ensures id in BatchIds(init) + {batch[|batch| - 1].id} {
          var k :| 0 <= k < |batch| && batch[k].id == id;
          if k < |batch| - 1 { assert init[k].id == id; }
        }
      }
      m
  }

  lemma {:induction false} UpsertIsUnion(store: Store, batch: seq<Record>)
    ensures Upsert(store, batch) == store + LastWrites(batch)
    decreases |batch|
  {
    if |batch| > 0 {
      var b0 := batch[0];
      UpsertIsUnion(store[b0.id := b0.entry], batch[1..]);
      LastWritesCons(batch);
      UpdateThenUnion(store, b0.id, b0.entry, LastWrites(batch[1..]));
    }
  }

  /** Writing one entry and then a map is the same as writing their union. */
  lemma UpdateThenUnion(store: Store, id: string, e: Entry, m: map<string, Entry>)
    ensures store[id := e] + m == store + (map[id := e] + m)
  {
  }

  lemma {:induction false} LastWritesCons(batch: seq<Record>)
    requires |batch| > 0
    ensures LastWrites(batch) == map[batch[0].id := batch[0].entry] + LastWrites(batch[1..])
    decreases |batch|
  {
    if |batch| > 1 {
      var init := batch[..|batch| - 1];
      var last := batch[|batch| - 1];
      LastWritesCons(init);
      assert init[0] == batch[0];
      assert init[1..] == batch[1..][..|batch[1..]| - 1];
      assert batch[1..][|batch[1..]| - 1] == last;
      assert LastWrites(batch[1..]) == LastWrites(init[1..])[last.id := last.entry];
      UnionThenUpdate(map[batch[0].id := batch[0].entry], LastWrites(init[1..]), last.id, last.entry);
    }
  }

  /** Updating a union updates its right-hand side. */
  lemma UnionThenUpdate(a: map<string, Entry>, b: map<string, Entry>, id: string, e: Entry)
    ensures (a + b)[id := e] == a + b[id := e]
  {
  }

  /** The entry belongs to the given user's given document. */
  predicate Owns(e: Entry, userId: string, docId: string) {
    e.meta.userId == userId && e.meta.docId == docId
  }

  /**
   * `delete_doc_index`: the `where={"user_id": ..., "doc_id": ...}` delete.
   * Exactly the entries of that user's document go; the rest stay as they were.
   */
  function DeleteDocIndex(store: Store, userId: string, docId: string): (r: Store)
    ensures forall id :: id in r <==> id in store && !Owns(store[id], userId, docId)
    ensures forall id :: id in r ==> r[id] == store[id]
  {
    map id | id in store && !Owns(store[id], userId, docId) :: store[id]
  }

  /** Deleting twice is deleting once; deleting a document nobody indexed is a no-op. */
  lemma DeleteDocIndexIdempotent(store: Store, userId: string, docId: string)
    ensures DeleteDocIndex(DeleteDocIndex(store, userId, docId), userId, docId)
            == DeleteDocIndex(store, userId, docId)
    ensures (forall id :: id in store ==> !Owns(store[id], userId, docId))
            ==> DeleteDocIndex(store, userId, docId) == store
  {
  }

  /**
   * Indexing a document and then deleting it leaves the store as deleting
   * alone would have, provided no id the call writes held another user's or
   * document's entry.
   */
  lemma DeleteUndoesIndex(store: Store, userId: string, docId: string, filename: string,
                          pages: seq<(int, string)>, split: string -> seq<string>)
    requires forall id :: id in store && id in BatchIds(Batch(userId, docId, filename, pages, split))
               ==> Owns(store[id], userId, docId)
    ensures DeleteDocIndex(IndexPages(store, userId, docId, filename, pages, split).0, userId, docId)
            == DeleteDocIndex(store, userId, docId)
  {
    var batch := Batch(userId, docId, filename, pages, split);
    if |batch| > 0 {
      UpsertIsUnion(store, batch);
      BatchOwned(userId, docId, filename, pages, split);
      LastWritesFrom(batch);
      DeleteOwnedUnion(store, LastWrites(batch), userId, docId);
    }
  }

  /** Adding entries of the document only, over ids of the document only, is undone by the delete. */
  lemma DeleteOwnedUnion(store: Store, m: map<string, Entry>, userId: string, docId: string)
    requires forall id :: id in m ==> Owns(m[id], userId, docId)
    requires forall id :: id in store && id in m ==> Owns(store[id], userId, docId)
    ensures DeleteDocIndex(store + m, userId, docId) == DeleteDocIndex(store, userId, docId)
  {
    var a := DeleteDocIndex(store + m, userId, docId);
    var b := DeleteDocIndex(store, userId, docId);
    assert a.Keys == b.Keys;
    forall id | id in a ensures a[id] == b[id] {
      assert id !in m;
    }
  }

  lemma {:induction false} BatchOwned(userId: string, docId: string, filename: string,
                                      pages: seq<(int, string)>, split: string -> seq<string>)
    ensures forall k :: 0 <= k < |Batch(userId, docId, filename, pages, split)| ==>
      Owns(Batch(userId, docId, filename, pages, split)[k].entry, userId, docId)
    decreases |pages|
  {
    if |pages| > 0 {
      BatchOwned(userId, docId, filename, pages[1..], split);
    }
  }

  lemma {:induction false} LastWritesFrom(batch: seq<Record>)
    ensures forall id :: id in LastWrites(batch) ==> exists k :: 0 <= k < |batch| && LastWrites(batch)[id] == batch[k].entry
    decreases |batch|
  {
    if |batch| > 0 {
      var init := batch[..|batch| - 1];
      LastWritesFrom(init);
      forall id | id in LastWrites(batch)
        ensures exists k :: 0 <= k < |batch| && LastWrites(batch)[id] == batch[k].entry
      {
        if id != batch[|batch| - 1].id {
          var k :| 0 <= k < |init| && LastWrites(init)[id] == init[k].entry;
          assert init[k] == batch[k];
        }
      }
    }
  }

  function ToRagChunk(e: Entry): RagChunk {
    RagChunk(e.text, e.meta.docId, e.meta.filename, Some(e.meta.page))
  }

  /** `c` is built from an entry of the store that belongs to `userId`. */
  ghost predicate StoredFor(store: Store, userId: string, c: RagChunk) {
    exists id :: id in store && store[id].meta.userId == userId && c == ToRagChunk(store[id])
  }

  /** `a` can be obtained from `b` by dropping elements, keeping the order of the rest. */
  predicate Subsequence(a: seq<string>, b: seq<string>)
    decreases |b|
  {
    if |a| == 0 then true
    else if |b| == 0 then false
    else (a[0] == b[0] && Subsequence(a[1..], b[1..])) || Subsequence(a, b[1..])
  }

  /** The ids of `ranked` that are stored and belong to `userId`, in ranked order. */
  function OwnedRanked(store: Store, userId: string, ranked: seq<string>): (r: seq<string>)
    ensures forall i :: 0 <= i < |r| ==> r[i] in store && store[r[i]].meta.userId == userId
    ensures forall id :: id in r <==> id in ranked && id in store && store[id].meta.userId == userId
    ensures Subsequence(r, ranked)
    decreases |ranked|
  {
    if |ranked| == 0 then []
    else
      var rest := OwnedRanked(store, userId, ranked[1..]);
      assert ranked == [ranked[0]] + ranked[1..];
      if ranked[0] in store && store[ranked[0]].meta.userId == userId then [ranked[0]] + rest else rest
  }

  /**
   * `retrieve_chunks`: `ranked` is the index's similarity order of its ids for
   * the query; the search keeps the user's entries and returns the first `k`.
   */
  function RetrieveChunks(store: Store, userId: string, ranked: seq<string>, k: nat): (r: seq<RagChunk>)
    ensures |r| <= k
    ensures |r| == if |OwnedRanked(store, userId, ranked)| < k then |OwnedRanked(store, userId, ranked)| else k
    ensures forall i :: 0 <= i < |r| ==> StoredFor(store, userId, r[i])
    ensures forall i :: 0 <= i < |r| ==> r[i] == ToRagChunk(store[OwnedRanked(store, userId, ranked)[i]])
  {
    var owned := OwnedRanked(store, userId, ranked);
    var top := if |owned| < k then owned else owned[..k];
    var r := seq(|top|, i requires 0 <= i < |top| => ToRagChunk(store[top[i]]));
    assert forall i :: 0 <= i < |r| ==> StoredFor(store, userId, r[i]) by {
      forall i | 0 <= i < |r| ensures StoredFor(store, userId, r[i]) {
        assert top[i] == owned[i];
        assert r[i] == ToRagChunk(store[top[i]]);
      }
    }
    r
  }

  /** After `delete_doc_index`, retrieval for that user never returns the document. */
  lemma RetrieveAfterDelete(store: Store, userId: string, docId: string, ranked: seq<string>, k: nat)
    ensures forall c :: c in RetrieveChunks(DeleteDocIndex(store, userId, docId), userId, ranked, k)
              ==> c.docId != docId
  {
    var s := DeleteDocIndex(store, userId, docId);
    var r := RetrieveChunks(s, userId, ranked, k);
    forall c | c in r ensures c.docId != docId {
      var i :| 0 <= i < |r| && r[i] == c;
      assert StoredFor(s, userId, r[i]);
    }
  }
}

=== FILE: rag_tokens.dfy ===
/**
 * The tokeniser of the RAG store and the integer part of its hashed
 * bag-of-tokens embedding (app/rag_store.py, `_tokenize` and
 * `LightHashEmbeddings._embed` up to, not including, the L2 normalisation).
 */
module RagTokens {
  import opened Wrappers
  import Text

  /** The character class `[a-zA-Z0-9]` of the tokenising regex. */
  predicate IsWordChar(c: char) {
    'a' <= c <= 'z' || 'A' <= c <= 'Z' || '0' <= c <= '9'
  }

  /** What tokens are made of once the text has been lower-cased: `[a-z0-9]`. */
  predicate IsLowerWordChar(c: char) {
    'a' <= c <= 'z' || '0' <= c <= '9'
  }

  /** A non-empty string of word characters. */
  predicate IsWord(w: string) {
    |w| > 0 && forall i :: 0 <= i < |w| ==> IsWordChar(w[i])
  }

  /** Length of the longest prefix of `s` made of word characters. */
  function RunLength(s: string): (n: nat)
    ensures n <= |s|
    ensures forall i :: 0 <= i < n ==> IsWordChar(s[i])
    ensures n < |s| ==> !IsWordChar(s[n])
    decreases |s|
  {
    if |s| > 0 && IsWordChar(s[0]) then 1 + RunLength(s[1..]) else 0
  }

  /**
   * `re.findall(r"[a-zA-Z0-9]+", s)`: the maximal runs of word characters,
   * left to right.
   */
  function Runs(s: string): (r: seq<string>)
    ensures forall i :: 0 <= i < |r| ==> IsWord(r[i])
    ensures forall i, j :: 0 <= i < |r| && 0 <= j < |r[i]| ==> r[i][j] in s
    decreases |s|
  {
    if |s| == 0 then []
    else if !IsWordChar(s[0]) then Runs(s[1..])
    else
      var n := RunLength(s);
      var rest := Runs(s[n..]);
      assert forall i, j :: 0 <= i < |rest| && 0 <= j < |rest[i]| ==> rest[i][j] in s by {
        forall i, j | 0 <= i < |rest| && 0 <= j < |rest[i]|
          ensures rest[i][j] in s
        {
          var k :| 0 <= k < |s[n..]| && s[n..][k] == rest[i][j];
          assert s[n + k] == rest[i][j];
        }
      }
      [s[..n]] + rest
  }

  /** `_tokenize(text)`: `None` and `""` both give no tokens. */
  function Tokenize(text: Option<string>): (r: seq<string>)
    ensures forall i :: 0 <= i < |r| ==> |r[i]| > 0
    ensures forall i, j :: 0 <= i < |r| && 0 <= j < |r[i]| ==> IsLowerWordChar(r[i][j])
    ensures text == None || text == Some("") ==> r == []
  {
    var lowered := Text.Lower(text.GetOr(""));
    var r := Runs(lowered);
    assert forall i, j :: 0 <= i < |r| && 0 <= j < |r[i]| ==> IsLowerWordChar(r[i][j]) by {
      forall i, j | 0 <= i < |r| && 0 <= j < |r[i]|
        ensures IsLowerWordChar(r[i][j])
      {
        var k :| 0 <= k < |lowered| && lowered[k] == r[i][j];
        assert IsWord(r[i]);
      }
    }
    r
  }

  /** A single word is a single token. */
  lemma RunsOfWord(w: string)
    requires IsWord(w)
    ensures Runs(w) == [w]
  {
    assert RunLength(w) == |w|;
    assert w[..|w|] == w;
    assert w[|w|..] == [];
  }

  /**
   * Any non-word character separates: the tokens of `a + [c] + b` are the
   * tokens of `a` followed by the tokens of `b`. Together with `RunsOfWord`
   * and `Runs("") == []` this pins `Runs` down on every string.
   */
  lemma {:induction false} RunsSplit(a: string, c: char, b: string)
    requires !IsWordChar(c)
    ensures Runs(a + [c] + b) == Runs(a) + Runs(b)
    decreases |a|
  {
    var s := a + [c] + b;
    if |a| == 0 {
      assert s[1..] == b;
    } else if !IsWordChar(a[0]) {
      assert s[1..] == a[1..] + [c] + b;
      RunsSplit(a[1..], c, b);
    } else {
      var n := RunLength(a);
      RunLengthPrefix(a, [c] + b);
      assert s == a + ([c] + b);
      if n == |a| {
        assert RunLength(s) == n;
        assert s[..n] == a;
        assert s[n..] == [c] + b;
        assert ([c] + b)[1..] == b;
        assert Runs([c] + b) == Runs(b);
        RunsOfWord(a);
      } else {
        assert s[..n] == a[..n];
        assert s[n..] == a[n..] + [c] + b;
        RunsSplit(a[n..], c, b);
      }
    }
  }

  /** The word run at the start of `a + t` stays inside `a` unless `a` is all word. */
  lemma RunLengthPrefix(a: string, t: string)
    requires |t| > 0 && !IsWordChar(t[0])
    ensures RunLength(a + t) == RunLength(a)
  {
    assert forall i :: 0 <= i < |a| ==> (a + t)[i] == a[i];
    assert (a + t)[|a|] == t[0];
  }

  /** The bucket `hash(t) % dim`; Python's `%` and Dafny's agree for `dim > 0`. */
  function Bucket(hash: string -> int, dim: nat, t: string): (b: nat)
    requires dim > 0
    ensures b < dim
  {
    hash(t) % dim
  }

  /** How many of `tokens` fall into bucket `b`: the reference count. */
  function BucketCount(tokens: seq<string>, hash: string -> int, dim: nat, b: nat): nat
    requires dim > 0
    decreases |tokens|
  {
    if |tokens| == 0 then 0
    else
      BucketCount(tokens[..|tokens| - 1], hash, dim, b)
      + (if Bucket(hash, dim, tokens[|tokens| - 1]) == b then 1 else 0)
  }

  function Sum(v: seq<nat>): nat
    decreases |v|
  {
    if |v| == 0 then 0 else v[0] + Sum(v[1..])
  }

  lemma {:induction false} SumIncrement(v: seq<nat>, i: nat)
    requires i < |v|
    ensures Sum(v[i := v[i] + 1]) == Sum(v) + 1
    decreases |v|
  {
    if i > 0 {
      assert v[i := v[i] + 1][1..] == v[1..][i - 1 := v[i] + 1];
      SumIncrement(v[1..], i - 1);
    }
  }

  lemma {:induction false} SumZeros(n: nat)
    ensures Sum(seq(n, _ => 0)) == 0
  {
    if n > 0 {
      assert seq(n, _ => 0)[1..] == seq(n - 1, _ => 0);
      SumZeros(n - 1);
    }
  }

  /**
   * `_embed` before normalisation: a vector of `dim` counters, where each
   * token of `text` adds one to the counter of its bucket.
   */
  method EmbedCounts(text: Option<string>, dim: nat, hash: string -> int) returns (vec: seq<nat>)
    requires dim > 0
    ensures |vec| == dim
    ensures forall b :: 0 <= b < dim ==> vec[b] == BucketCount(Tokenize(text), hash, dim, b)
    ensures Sum(vec) == |Tokenize(text)|
    ensures Tokenize(text) == [] ==> forall b :: 0 <= b < dim ==> vec[b] == 0
  {
    var tokens := Tokenize(text);
    vec := seq(dim, _ => 0);
    SumZeros(dim);
    var k := 0;
    while k < |tokens|
      invariant 0 <= k <= |tokens|
      invariant |vec| == dim
      invariant forall b :: 0 <= b < dim ==> vec[b] == BucketCount(tokens[..k], hash, dim, b)
      invariant Sum(vec) == k
    {
      var i := Bucket(hash, dim, tokens[k]);
      SumIncrement(vec, i);
      vec := vec[i := vec[i] + 1];
      assert tokens[..k + 1][..k] == tokens[..k];
      k := k + 1;
    }
    assert tokens[..k] == tokens;
  }
}

=== FILE: sessions.dfy ===
/**
 * Date and time parsing of the lawyer-session router (app/routers/sessions.py):
 * `_parse_scheduled_at`, which reads the date with `strptime(date, "%Y-%m-%d")`
 * and the time with `strptime(time.strip(), "%I:%M %p")`, and the record
 * `book_session` stores.
 *
 * The two `strptime` calls are modelled after the regular expressions CPython's
 * `_strptime` builds for these directives, tried left to right with the
 * backtracking of Python's `re.match`, followed by the "unconverted data
 * remains" check and the calendar check of `datetime.date`.
 */
module Sessions {
  import opened Wrappers
  import opened HttpErrors
  import Text
  import Decimal

  const DateDetail: string := "Invalid date format. Use YYYY-MM-DD."
  const TimeDetail: string := "Invalid time format. Use e.g. \"09:00 AM\"."

  datatype Date = Date(year: int, month: int, day: int)

  /** A time of day on the 24-hour clock. */
  datatype Clock = Clock(hour: int, minute: int)

  /** `datetime.combine(d, t)`; `strptime` always leaves the seconds at 0. */
  datatype DateTime = DateTime(year: int, month: int, day: int, hour: int, minute: int, second: int)

  predicate IsLeapYear(y: int) {
    y % 4 == 0 && (y % 100 != 0 || y % 400 == 0)
  }

  function DaysInMonth(year: int, month: int): int
    requires 1 <= month <= 12
  {
    if month == 2 then (if IsLeapYear(year) then 29 else 28)
    else if month == 4 || month == 6 || month == 9 || month == 11 then 30
    else 31
  }

  /** A date `datetime.date` accepts. */
  predicate ValidDate(d: Date) {
    1 <= d.year <= 9999 && 1 <= d.month <= 12 && 1 <= d.day <= DaysInMonth(d.year, d.month)
  }

  /** One way a regex group can match at the start of a string: its length and `int()` value. */
  datatype Match = Match(len: nat, value: int)


  /**
   * The alternatives of `1[0-2]|0[1-9]|[1-9]` (the `%m` and `%I` groups)
   * that match at the start of `s`, in the order the regex tries them.
   */
  function TwelveAlternatives(s: string): (r: seq<Match>)
    ensures forall k :: 0 <= k < |r| ==> 1 <= r[k].len <= |s| && 1 <= r[k].value <= 12
  {
    (if |s| >= 2 && s[0] == '1' && '0' <= s[1] <= '2' then [Match(2, 10 + Decimal.DigitValue(s[1]))] else [])
    + (if |s| >= 2 && s[0] == '0' && '1' <= s[1] <= '9' then [Match(2, Decimal.DigitValue(s[1]))] else [])
    + (if |s| >= 1 && '1' <= s[0] <= '9' then [Match(1, Decimal.DigitValue(s[0]))] else [])
  }

  /** The alternatives of `3[01]|[12]\d|0[1-9]|[1-9]| [1-9]` (the `%d` group), in order. */
  function DayAlternatives(s: string): (r: seq<Match>)
    ensures forall k :: 0 <= k < |r| ==> 1 <= r[k].len <= |s| && 1 <= r[k].value <= 31
  {
    (if |s| >= 2 && s[0] == '3' && '0' <= s[1] <= '1' then [Match(2, 30 + Decimal.DigitValue(s[1]))] else [])
    + (if |s| >= 2 && '1' <= s[0] <= '2' && Decimal.IsDigit(s[1]) then [Match(2, 10 * Decimal.DigitValue(s[0]) + Decimal.DigitValue(s[1]))] else [])
    + (if |s| >= 2 && s[0] == '0' && '1' <= s[1] <= '9' then [Match(2, Decimal.DigitValue(s[1]))] else [])
    + (if |s| >= 1 && '1' <= s[0] <= '9' then [Match(1, Decimal.DigitValue(s[0]))] else [])
    + (if |s| >= 2 && s[0] == ' ' && '1' <= s[1] <= '9' then [Match(2, Decimal.DigitValue(s[1]))] else [])
  }

  /** The alternatives of `[0-5]\d|\d` (the `%M` group), in order. */
  function MinuteAlternatives(s: string): (r: seq<Match>)
    ensures forall k :: 0 <= k < |r| ==> 1 <= r[k].len <= |s| && 0 <= r[k].value <= 59
  {
    (if |s| >= 2 && '0' <= s[0] <= '5' && Decimal.IsDigit(s[1]) then [Match(2, 10 * Decimal.DigitValue(s[0]) + Decimal.DigitValue(s[1]))] else [])
    + (if |s| >= 1 && Decimal.IsDigit(s[0]) then [Match(1, Decimal.DigitValue(s[0]))] else [])
  }

  /** What must match after a group for the whole pattern to match. */
  datatype Continuation =
    | DashThenDay(rest: string)        // `-` and then the `%d` group
    | SpaceThenMeridiem(rest: string)  // `\s+` and then the `%p` group

  predicate Continues(k: Continuation, m: Match) {
    match k
    case DashThenDay(rest) => m.len < |rest| && rest[m.len] == '-' && DayAfter(rest[m.len + 1..]).Some?
    case SpaceThenMeridiem(rest) => m.len <= |rest| && MeridiemAfter(rest[m.len..]).Some?
  }

  /** The first alternative after which the rest of the pattern matches (regex backtracking). */
  function FirstAccepted(alts: seq<Match>, k: Continuation): (r: Option<Match>)
    ensures r.Some? ==> r.value in alts && Continues(k, r.value)
    ensures r.None? ==> forall i :: 0 <= i < |alts| ==> !Continues(k, alts[i])
    decreases |alts|
  {
    if |alts| == 0 then None
    else if Continues(k, alts[0]) then Some(alts[0])
    else FirstAccepted(alts[1..], k)
  }

  /**
   * The chosen alternative is the first one that lets the rest match: it
   * sits at some position `i` of `alts`, and no alternative before `i` continues.
   */
  lemma {:induction false} FirstAcceptedIsFirst(alts: seq<Match>, k: Continuation)
    requires FirstAccepted(alts, k).Some?
    ensures exists i :: 0 <= i < |alts| && alts[i] == FirstAccepted(alts, k).value
                        && forall j :: 0 <= j < i ==> !Continues(k, alts[j])
    decreases |alts|
  {
    if !Continues(k, alts[0]) {
      FirstAcceptedIsFirst(alts[1..], k);
      var i :| 0 <= i < |alts[1..]| && alts[1..][i] == FirstAccepted(alts[1..], k).value
               && forall j :: 0 <= j < i ==> !Continues(k, alts[1..][j]);
      forall j | 0 <= j < i + 1 ensures !Continues(k, alts[j]) {
        if j > 0 { assert alts[j] == alts[1..][j - 1]; }
      }
    }
  }

  /** Whether a day group can match after the month, and then the first one that does. */
  function DayAfter(s: string): Option<Match> {
    var alts := DayAlternatives(s);
    if |alts| == 0 then None else Some(alts[0])
  }

  /**
   * `strptime(s, "%Y-%m-%d").date()`: four digits, `-`, month, `-`, day,
   * nothing after, and a real calendar date.
   */
  function ParseDate(s: string): (r: Option<Date>)
    ensures r.Some? ==> ValidDate(r.value)
  {
    if |s| < 5 || !Decimal.AllDigits(s[..4]) || s[4] != '-' then None
    else
      var year := Decimal.DigitsValue(s[..4]);
      var rest := s[5..];
      match FirstAccepted(TwelveAlternatives(rest), DashThenDay(rest))
      case None => None
      case Some(month) =>
        var dayText := rest[month.len + 1..];
        var day := DayAfter(dayText).value;
        if day.len != |dayText| then None
        else if ValidDate(Date(year, month.value, day.value)) then Some(Date(year, month.value, day.value))
        else None
  }

  /** Length of the run of whitespace at the start of `s` (what `\s+` consumes). */
  function SpaceRun(s: string): (n: nat)
    ensures n <= |s|
    decreases |s|
  {
    if |s| > 0 && Text.IsSpace(s[0]) then 1 + SpaceRun(s[1..]) else 0
  }

  /** `\s+(am|pm)` at the start of `s`, case ignored: whether it is "pm", and the length matched. */
  function MeridiemAfter(s: string): Option<(bool, nat)> {
    var w := SpaceRun(s);
    if w >= 1 && w + 2 <= |s| && Text.LowerChar(s[w + 1]) == 'm' then
      if Text.LowerChar(s[w]) == 'a' then Some((false, w + 2))
      else if Text.LowerChar(s[w]) == 'p' then Some((true, w + 2))
      else None
    else None
  }

  /**
   * What `%I` with `%p` yields: 12 AM is hour 0, 12 PM is hour 12, other
   * PM hours gain 12. Equivalently: the hour is on the 24-hour clock, agrees
   * with the 12-hour reading modulo 12, and is in the afternoon exactly for PM.
   */
  function To24Hour(hour12: int, pm: bool): (h: int)
    requires 1 <= hour12 <= 12
    ensures 0 <= h < 24
    ensures h % 12 == hour12 % 12
    ensures h >= 12 <==> pm
  {
    if !pm then (if hour12 == 12 then 0 else hour12)
    else (if hour12 == 12 then 12 else hour12 + 12)
  }

  /** `strptime(t, "%I:%M %p").time()` for an already stripped `t`. */
  function ParseClock(t: string): (r: Option<Clock>)
    ensures r.Some? ==> 0 <= r.value.hour < 24 && 0 <= r.value.minute < 60
  {
    ClockAfterFirstHour(TwelveAlternatives(t), t)
  }

  /** The first of the hour alternatives `alts` after which the rest matches, and the time read after it. */
  function ClockAfterFirstHour(alts: seq<Match>, t: string): (r: Option<Clock>)
    ensures r.Some? ==> 0 <= r.value.hour < 24 && 0 <= r.value.minute < 60
  {
    match FirstHour(alts, t)
    case None => None
    case Some(hour) => ClockAfterHour(hour.value, t[hour.len + 1..])
  }

  /**
   * After `%I:`, the minute, whitespace and AM/PM must fill the rest of the
   * text. An hour group always reads 1 to 12, and `FirstHour` only picks one
   * that a minute group follows; outside that, nothing is read.
   */
  function ClockAfterHour(hour12: int, rest: string): (r: Option<Clock>)
    ensures r.Some? ==> 0 <= r.value.hour < 24 && 0 <= r.value.minute < 60
  {
    match MinuteAfter(rest)
    case None => None
    case Some(minute) =>
      var (pm, tail) := MeridiemAfter(rest[minute.len..]).value;
      if !(1 <= hour12 <= 12) || minute.len + tail != |rest| then None
      else Some(Clock(To24Hour(hour12, pm), minute.value))
  }

  /** The minute group followed by whitespace and AM/PM. */
  function MinuteAfter(s: string): (r: Option<Match>)
    ensures r.Some? ==> r.value.len <= |s| && 0 <= r.value.value <= 59 && MeridiemAfter(s[r.value.len..]).Some?
  {
    FirstAccepted(MinuteAlternatives(s), SpaceThenMeridiem(s))
  }

  /** The first hour alternative followed by `:`, a minute group, whitespace and AM/PM. */
  function FirstHour(alts: seq<Match>, t: string): (r: Option<Match>)
    ensures r.Some? ==> r.value in alts && r.value.len < |t| && t[r.value.len] == ':' && MinuteAfter(t[r.value.len + 1..]).Some?
    decreases |alts|
  {
    if |alts| == 0 then None
    else if HourContinues(t, alts[0]) then Some(alts[0])
    else FirstHour(alts[1..], t)
  }

  /** Whether the hour group `m` is followed by `:`, a minute group, whitespace and AM/PM. */
  predicate HourContinues(t: string, m: Match) {
    m.len < |t| && t[m.len] == ':' && MinuteAfter(t[m.len + 1..]).Some?
  }

  /**
   * The chosen hour is the first alternative that lets the rest of
   * `%I:%M %p` match: no alternative before it does.
   */
  lemma {:induction false} FirstHourIsFirst(alts: seq<Match>, t: string)
    requires FirstHour(alts, t).Some?
    ensures exists i :: 0 <= i < |alts| && alts[i] == FirstHour(alts, t).value
                        && forall j :: 0 <= j < i ==> !HourContinues(t, alts[j])
    decreases |alts|
  {
    var r := FirstHour(alts, t).value;
    if HourContinues(t, alts[0]) {
      assert alts[0] == r;
    } else {
      var rest := alts[1..];
      assert FirstHour(rest, t).value == r;
      FirstHourIsFirst(rest, t);
      var i :| 0 <= i < |rest| && rest[i] == r && forall j :: 0 <= j < i ==> !HourContinues(t, rest[j]);
      NoHourBeforeShift(alts, t, i);
      assert alts[i + 1] == r;
    }
  }

  /** Shifting "no alternative before `i` continues" from `alts[1..]` back to `alts`. */
  lemma NoHourBeforeShift(alts: seq<Match>, t: string, i: nat)
    requires i < |alts| - 1 && !HourContinues(t, alts[0])
    requires forall j :: 0 <= j < i ==> !HourContinues(t, alts[1..][j])
    ensures forall j :: 0 <= j < i + 1 ==> !HourContinues(t, alts[j])
  {
    forall j | 0 < j < i + 1 ensures !HourContinues(t, alts[j]) {
      assert alts[j] == alts[1..][j - 1];
    }
  }

  /**
   * `_parse_scheduled_at`: the date is checked first, so a bad date reports
   * the date error even when the time is bad too.
   */
  function ParseScheduledAt(date: string, time: string): (r: Result<DateTime, HttpError>)
    ensures r.Success? ==>
      && ValidDate(Date(r.value.year, r.value.month, r.value.day))
      && 0 <= r.value.hour < 24 && 0 <= r.value.minute < 60 && r.value.second == 0
    ensures ParseDate(date).None? ==> r == Failure(BadRequest(DateDetail))
    ensures ParseDate(date).Some? && ParseClock(Text.Strip(time)).None? ==> r == Failure(BadRequest(TimeDetail))
    ensures ParseDate(date).Some? && ParseClock(Text.Strip(time)).Some? ==>
      var d := ParseDate(date).value;
      var c := ParseClock(Text.Strip(time)).value;
      r == Success(DateTime(d.year, d.month, d.day, c.hour, c.minute, 0))
  {
    match ParseDate(date)
    case None => Failure(BadRequest(DateDetail))
    case Some(d) =>
      match ParseClock(Text.Strip(time))
      case None => Failure(BadRequest(TimeDetail))
      case Some(c) => Success(DateTime(d.year, d.month, d.day, c.hour, c.minute, 0))
  }

  // Canonical text, and reading it back.

  function Pad4(n: nat): (s: string)
    requires n < 10000
    ensures |s| == 4 && Decimal.AllDigits(s)
  {
    var q1 := n / 10;
    var q2 := q1 / 10;
    [Decimal.DigitChar(q2 / 10), Decimal.DigitChar(q2 % 10), Decimal.DigitChar(q1 % 10), Decimal.DigitChar(n % 10)]
  }

  /** `YYYY-MM-DD` for any year, month and day that fit the widths. */
  function DateText(year: nat, month: nat, day: nat): (s: string)
    requires year < 10000 && month < 100 && day < 100
    ensures |s| == 10
  {
    Pad4(year) + [ '-', Decimal.DigitChar(month / 10), Decimal.DigitChar(month % 10),
                   '-', Decimal.DigitChar(day / 10), Decimal.DigitChar(day % 10) ]
  }

  function FormatDate(d: Date): string
    requires ValidDate(d)
  {
    DateText(d.year, d.month, d.day)
  }

  lemma Pad4Value(n: nat)
    requires n < 10000
    ensures Decimal.DigitsValue(Pad4(n)) == n
  {
    var s := Pad4(n);
    var q1 := n / 10;
    var q2 := q1 / 10;
    assert s[..3][..2] == s[..2] && s[..2][..1] == s[..1] && s[..1][..0] == [];
    assert Decimal.DigitsValue(s[..1]) == q2 / 10;
    assert Decimal.DigitsValue(s[..2]) == q2;
    assert Decimal.DigitsValue(s[..3]) == q1;
    assert s[..4] == s;
  }

  /**
   * A zero-padded `YYYY-MM-DD` is accepted exactly when it names a real
   * date: February 29th only in leap years, no day 31 in the short months,
   * no year 0.
   */
  lemma ParseDateTextIff(year: nat, month: nat, day: nat)
    requires year < 10000 && month < 100 && day < 100
    ensures ParseDate(DateText(year, month, day)).Some? <==> ValidDate(Date(year, month, day))
    ensures ParseDate(DateText(year, month, day)).Some? ==> ParseDate(DateText(year, month, day)).value == Date(year, month, day)
  {
    var s := DateText(year, month, day);
    assert s[..4] == Pad4(year);
    Pad4Value(year);
    var rest := s[5..];
    MonthOfText(rest, month);
    DayOfText(rest[3..], day);
  }

  /**
   * The `%d` group on two digits spells a day of 1 to 31 exactly when it
   * takes both digits; `00` matches nothing and `32` to `99` only their first digit.
   */
  lemma DayOfText(u: string, day: nat)
    requires day < 100 && |u| == 2
    requires u[0] == Decimal.DigitChar(day / 10) && u[1] == Decimal.DigitChar(day % 10)
    ensures (DayAfter(u).Some? && DayAfter(u).value.len == 2) <==> 1 <= day <= 31
    ensures DayAfter(u).Some? && DayAfter(u).value.len == 2 ==> DayAfter(u).value.value == day
  {
    var a, b := day / 10, day % 10;
    assert Decimal.DigitValue(u[0]) == a && Decimal.DigitValue(u[1]) == b;
    var alts := DayAlternatives(u);
    if a == 0 && b == 0 {
      assert alts == [];
    } else if a == 0 {
      assert alts == [Match(2, b), Match(1, 0)] || alts == [Match(2, b)];
    } else if a == 3 && b <= 1 {
      assert alts[0] == Match(2, day);
    } else if a <= 2 {
      assert alts[0] == Match(2, day);
    } else {
      assert alts == [Match(1, a)];
    }
  }

  /**
   * The `%m` group on two digits followed by `-`: the pattern goes on only
   * with the two-digit month 1 to 12 and a day group after the dash; a
   * one-digit month would need the dash in place of the second digit.
   */
  lemma MonthOfText(rest: string, month: nat)
    requires month < 100 && |rest| >= 3
    requires rest[0] == Decimal.DigitChar(month / 10) && rest[1] == Decimal.DigitChar(month % 10) && rest[2] == '-'
    ensures FirstAccepted(TwelveAlternatives(rest), DashThenDay(rest))
            == if 1 <= month <= 12 && DayAfter(rest[3..]).Some? then Some(Match(2, month)) else None
  {
    TwelveOfDigits(rest, month);
    assert !Continues(DashThenDay(rest), Match(1, month / 10));
  }

  /**
   * The `%m`/`%I` group on two digits: a value of 1 to 12 is matched on both
   * digits first, and otherwise at most the first digit alone matches.
   */
  lemma TwelveOfDigits(s: string, v: nat)
    requires v < 100 && |s| >= 2
    requires s[0] == Decimal.DigitChar(v / 10) && s[1] == Decimal.DigitChar(v % 10)
    ensures 1 <= v <= 12 ==>
      TwelveAlternatives(s) == [Match(2, v)] || TwelveAlternatives(s) == [Match(2, v), Match(1, v / 10)]
    ensures !(1 <= v <= 12) ==> TwelveAlternatives(s) == [] || TwelveAlternatives(s) == [Match(1, v / 10)]
  {
    assert Decimal.DigitValue(s[0]) == v / 10 && Decimal.DigitValue(s[1]) == v % 10;
  }

  /** Every real date written as `YYYY-MM-DD` is read back as itself. */
  lemma ParseDateRoundTrip(d: Date)
    requires ValidDate(d)
    ensures ParseDate(FormatDate(d)) == Some(d)
  {
    ParseDateTextIff(d.year, d.month, d.day);
  }

  /** `hh:mm AM` or `hh:mm PM` for an hour on the 12-hour clock. */
  function ClockText(hour12: nat, minute: nat, pm: bool): (t: string)
    requires hour12 < 100 && minute < 100
    ensures |t| == 8
  {
    [ Decimal.DigitChar(hour12 / 10), Decimal.DigitChar(hour12 % 10), ':',
      Decimal.DigitChar(minute / 10), Decimal.DigitChar(minute % 10), ' ',
      if pm then 'P' else 'A', 'M' ]
  }

  /** A time on the 24-hour clock written on the 12-hour clock. */
  function FormatClock(c: Clock): string
    requires 0 <= c.hour < 24 && 0 <= c.minute < 60
  {
    ClockText(Hour12(c.hour), c.minute, c.hour >= 12)
  }

  /** The 12-hour clock reading of an hour: 0 and 12 read as 12. */
  function Hour12(hour: int): (h: int)
    requires 0 <= hour < 24
    ensures 1 <= h <= 12 && To24Hour(h, hour >= 12) == hour
  {
    if hour % 12 == 0 then 12 else hour % 12
  }

  /** One space and AM or PM, in either case. */
  lemma MeridiemOfText(u: string)
    requires |u| == 3 && u[0] == ' ' && u[1] in "AaPp" && u[2] in "Mm"
    ensures MeridiemAfter(u) == Some((u[1] in "Pp", 3))
  {
    assert u[1..][1..] == [u[2]];
    assert SpaceRun(u[1..]) == 0;
  }

  /** The minutes and the meridiem of `mm AM` / `mm PM` are read back. */
  lemma MinuteOfText(u: string, minute: nat)
    requires minute < 60 && |u| == 5
    requires u[0] == Decimal.DigitChar(minute / 10) && u[1] == Decimal.DigitChar(minute % 10)
    requires u[2] == ' ' && u[3] in "AaPp" && u[4] in "Mm"
    ensures MinuteAfter(u) == Some(Match(2, minute))
    ensures MeridiemAfter(u[2..]) == Some((u[3] in "Pp", 3))
  {
    MeridiemOfText(u[2..]);
    assert MinuteAlternatives(u)[0] == Match(2, minute);
  }

  /** A well-formed `hh:mm AM` / `hh:mm PM` reads as its hour converted by `To24Hour`. */
  lemma ParseClockText(hour12: nat, minute: nat, pm: bool)
    requires 1 <= hour12 <= 12 && minute < 60
    ensures ParseClock(ClockText(hour12, minute, pm)) == Some(Clock(To24Hour(hour12, pm), minute))
  {
    var t := ClockText(hour12, minute, pm);
    var rest := t[3..];
    MinuteOfText(rest, minute);
    HourOfText(t, hour12);
    assert rest[2..] == t[5..];
  }

  /** Two digits of a 12-hour clock hour and `:` before a readable minute are the hour group. */
  lemma HourOfText(t: string, hour12: nat)
    requires 1 <= hour12 <= 12 && |t| > 3
    requires t[0] == Decimal.DigitChar(hour12 / 10) && t[1] == Decimal.DigitChar(hour12 % 10) && t[2] == ':'
    requires MinuteAfter(t[3..]).Some?
    ensures FirstHour(TwelveAlternatives(t), t) == Some(Match(2, hour12))
  {
    TwelveOfDigits(t, hour12);
    assert HourContinues(t, Match(2, hour12));
  }

  /**
   * `hh:mm AM` / `hh:mm PM` with any two-digit hour and minute is accepted
   * exactly when the hour is 1 to 12 and the minute 0 to 59, and then reads
   * as that hour converted by `To24Hour`, with that minute.
   */
  lemma ParseClockTextIff(hour12: nat, minute: nat, pm: bool)
    requires hour12 < 100 && minute < 100
    ensures ParseClock(ClockText(hour12, minute, pm)).Some? <==> 1 <= hour12 <= 12 && minute < 60
    ensures ParseClock(ClockText(hour12, minute, pm)).Some? ==>
      1 <= hour12 <= 12 && ParseClock(ClockText(hour12, minute, pm)).value == Clock(To24Hour(hour12, pm), minute)
  {
    if 1 <= hour12 <= 12 && minute < 60 {
      ParseClockText(hour12, minute, pm);
    } else {
      var t := ClockText(hour12, minute, pm);
      MinuteOfDigits(t[3..], minute);
      HourOfDigits(t, hour12);
    }
  }

  /** The `%M` group on two digits before ` AM`/` PM` goes on only for minutes 0 to 59. */
  lemma MinuteOfDigits(u: string, minute: nat)
    requires minute < 100 && |u| == 5
    requires u[0] == Decimal.DigitChar(minute / 10) && u[1] == Decimal.DigitChar(minute % 10)
    requires u[2] == ' ' && u[3] in "AaPp" && u[4] in "Mm"
    ensures MinuteAfter(u).Some? <==> minute < 60
  {
    if minute < 60 {
      MinuteOfText(u, minute);
    } else {
      var a := minute / 10;
      assert Decimal.DigitValue(u[0]) == a;
      assert MinuteAlternatives(u) == [Match(1, a)];
      assert SpaceRun(u[1..]) == 0;
      assert !Continues(SpaceThenMeridiem(u), Match(1, a));
    }
  }

  /**
   * The `%I` group on two digits followed by `:`: the pattern goes on only
   * with the two-digit hour 1 to 12 and a readable minute after the colon.
   */
  lemma HourOfDigits(t: string, hour12: nat)
    requires hour12 < 100 && |t| > 3
    requires t[0] == Decimal.DigitChar(hour12 / 10) && t[1] == Decimal.DigitChar(hour12 % 10) && t[2] == ':'
    ensures FirstHour(TwelveAlternatives(t), t).Some? <==> 1 <= hour12 <= 12 && MinuteAfter(t[3..]).Some?
  {
    if !(1 <= hour12 <= 12) {
      HourOfBadDigits(t, hour12);
    } else if MinuteAfter(t[3..]).Some? {
      HourOfText(t, hour12);
    } else {
      HourBeforeBadMinute(t, hour12);
    }
  }

  /** An hour outside 1 to 12 leaves only a one-digit match, which the second digit stops. */
  lemma HourOfBadDigits(t: string, hour12: nat)
    requires hour12 < 100 && !(1 <= hour12 <= 12) && |t| > 3
    requires t[0] == Decimal.DigitChar(hour12 / 10) && t[1] == Decimal.DigitChar(hour12 % 10)
    ensures FirstHour(TwelveAlternatives(t), t).None?
  {
    TwelveOfDigits(t, hour12);
    assert !HourContinues(t, Match(1, hour12 / 10));
  }

  /** A good hour before an unreadable minute: neither hour match lets the pattern go on. */
  lemma HourBeforeBadMinute(t: string, hour12: nat)
    requires 1 <= hour12 <= 12 && |t| > 3
    requires t[0] == Decimal.DigitChar(hour12 / 10) && t[1] == Decimal.DigitChar(hour12 % 10) && t[2] == ':'
    requires MinuteAfter(t[3..]).None?
    ensures FirstHour(TwelveAlternatives(t), t).None?
  {
    TwelveOfDigits(t, hour12);
    assert !HourContinues(t, Match(1, hour12 / 10));
    assert !HourContinues(t, Match(2, hour12));
  }

  /** Every time of day written on the 12-hour clock is read back as itself. */
  lemma ParseClockRoundTrip(c: Clock)
    requires 0 <= c.hour < 24 && 0 <= c.minute < 60
    ensures ParseClock(FormatClock(c)) == Some(c)
  {
    ParseClockText(Hour12(c.hour), c.minute, c.hour >= 12);
  }

  /** `%m` and `%d` also take one digit, so `2024-1-5` is read as 5 January 2024. */
  lemma ParseDateAcceptsUnpadded(s: string)
    requires s == "2024-1-5"
    ensures ParseDate(s) == Some(Date(2024, 1, 5))
  {
    assert s[..4] == Pad4(2024);
    Pad4Value(2024);
    var rest := s[5..];
    assert rest == "1-5";
    assert TwelveAlternatives(rest) == [Match(1, 1)];
    assert DayAlternatives(rest[2..]) == [Match(1, 5)];
  }

  /** `%I` takes one digit and `%p` ignores case: `9:05 pm` is 21:05. */
  lemma ParseClockAcceptsLowerCase(t: string)
    requires t == "9:05 pm"
    ensures ParseClock(t) == Some(Clock(21, 5))
  {
    MinuteOfText(t[2..], 5);
    assert t[2..][2..] == t[4..];
    assert TwelveAlternatives(t) == [Match(1, 9)];
  }

  /** A 24-hour reading is no 12-hour hour: `13:00 PM` is rejected. */
  lemma ParseClockRejects24Hour(t: string)
    requires t == "13:00 PM"
    ensures ParseClock(t) == None
  {
    assert TwelveAlternatives(t) == [Match(1, 1)];
  }

  // What an accepted text looks like.

  /** `t` is one or two ASCII digits that read as `v`. */
  predicate DigitsSpell(t: string, v: int) {
    1 <= |t| <= 2 && Decimal.AllDigits(t) && Decimal.DigitsValue(t) == v
  }

  /** A `%d` text: one or two digits, or a space and one digit. */
  predicate DaySpell(t: string, v: int) {
    DigitsSpell(t, v) || (|t| == 2 && t[0] == ' ' && Decimal.IsDigit(t[1]) && Decimal.DigitValue(t[1]) == v)
  }

  /** Every `%m`/`%I` alternative reads the digits it covers. */
  lemma TwelveAlternativesSpell(s: string)
    ensures forall m :: m in TwelveAlternatives(s) ==> m.len <= |s| && DigitsSpell(s[..m.len], m.value)
  {
    if |s| >= 2 && Decimal.IsDigit(s[0]) && Decimal.IsDigit(s[1]) {
      Decimal.DigitsValueShort(s[..2]);
    }
    if |s| >= 1 && Decimal.IsDigit(s[0]) {
      Decimal.DigitsValueShort(s[..1]);
    }
  }

  /** Every `%d` alternative reads the digits it covers, after a space for ` [1-9]`. */
  lemma DayAlternativesSpell(s: string)
    ensures forall m :: m in DayAlternatives(s) ==> DaySpell(s[..m.len], m.value)
  {
    if |s| >= 2 && Decimal.IsDigit(s[0]) && Decimal.IsDigit(s[1]) {
      Decimal.DigitsValueShort(s[..2]);
    }
    if |s| >= 1 && Decimal.IsDigit(s[0]) {
      Decimal.DigitsValueShort(s[..1]);
    }
  }

  /** Every `%M` alternative reads the digits it covers. */
  lemma MinuteAlternativesSpell(s: string)
    ensures forall m :: m in MinuteAlternatives(s) ==> DigitsSpell(s[..m.len], m.value)
  {
    if |s| >= 2 && Decimal.IsDigit(s[0]) && Decimal.IsDigit(s[1]) {
      Decimal.DigitsValueShort(s[..2]);
    }
    if |s| >= 1 && Decimal.IsDigit(s[0]) {
      Decimal.DigitsValueShort(s[..1]);
    }
  }

  /** `YYYY-MM-DD` with the second dash at `j`: four digits of the year, the month, the day. */
  predicate DateSpelledAt(s: string, d: Date, j: int) {
    5 < j < |s| && s[4] == '-' && s[j] == '-'
    && Decimal.AllDigits(s[..4]) && Decimal.DigitsValue(s[..4]) == d.year
    && DigitsSpell(s[5..j], d.month) && DaySpell(s[j + 1..], d.day)
  }

  /** `s` spells `d` with a one- or two-digit month and nothing after the day. */
  predicate SpellsDate(s: string, d: Date) {
    DateSpelledAt(s, d, 6) || DateSpelledAt(s, d, 7)
  }

  /**
   * Only the `%Y-%m-%d` shape is accepted: an accepted text is the year's
   * four digits, `-`, the month's digits, `-` and the day's text, with
   * nothing left over.
   */
  lemma ParseDateSpelling(s: string)
    ensures ParseDate(s).Some? ==> SpellsDate(s, ParseDate(s).value)
  {
    if ParseDate(s).Some? {
      DateParts(s);
      var rest := s[5..];
      var month := FirstAccepted(TwelveAlternatives(rest), DashThenDay(rest)).value;
      var dayText := rest[month.len + 1..];
      TwelveAlternativesSpell(rest);
      DayAlternativesSpell(dayText);
      DateSpelledFromParts(s, ParseDate(s).value, rest, month, dayText, DayAfter(dayText).value);
    }
  }

  /** How `ParseDate` read an accepted date: year, month group, and a day group ending the text. */
  lemma DateParts(s: string)
    requires ParseDate(s).Some?
    ensures |s| >= 5 && Decimal.AllDigits(s[..4]) && s[4] == '-'
    ensures var rest := s[5..];
            && FirstAccepted(TwelveAlternatives(rest), DashThenDay(rest)).Some?
            && var month := FirstAccepted(TwelveAlternatives(rest), DashThenDay(rest)).value;
               var dayText := rest[month.len + 1..];
               && month in TwelveAlternatives(rest) && month.len < |rest| && rest[month.len] == '-'
               && DayAfter(dayText).Some? && DayAfter(dayText).value in DayAlternatives(dayText)
               && DayAfter(dayText).value.len == |dayText|
               && ParseDate(s).value == Date(Decimal.DigitsValue(s[..4]), month.value, DayAfter(dayText).value.value)
  {
  }

  /** The pieces of an accepted date, put together. */
  lemma DateSpelledFromParts(s: string, d: Date, rest: string, month: Match, dayText: string, day: Match)
    requires |s| >= 5 && Decimal.AllDigits(s[..4]) && s[4] == '-' && rest == s[5..]
    requires month.len < |rest| && rest[month.len] == '-' && DigitsSpell(rest[..month.len], month.value)
    requires dayText == rest[month.len + 1..] && day.len == |dayText| && DaySpell(dayText[..day.len], day.value)
    requires d == Date(Decimal.DigitsValue(s[..4]), month.value, day.value)
    ensures SpellsDate(s, d)
  {
    var j := 5 + month.len;
    assert s[5..j] == rest[..month.len];
    assert s[j + 1..] == dayText;
    assert dayText[..day.len] == dayText;
    assert DateSpelledAt(s, d, j);
  }

  /** Text after a well-formed date is "unconverted data": the date is refused. */
  lemma ParseDateRejectsTrailing(d: Date, x: string)
    requires ValidDate(d) && |x| > 0
    ensures ParseDate(FormatDate(d) + x).None?
  {
    ParseDateSpelling(FormatDate(d) + x);
  }

  /** `\s+` and then AM or PM in either case, filling `u`. */
  predicate MeridiemSpell(u: string, pm: bool) {
    && |u| >= 3
    && (forall i :: 0 <= i < |u| - 2 ==> Text.IsSpace(u[i]))
    && Text.LowerChar(u[|u| - 2]) == (if pm then 'p' else 'a')
    && Text.LowerChar(u[|u| - 1]) == 'm'
  }

  lemma {:induction false} SpaceRunSpaces(s: string)
    ensures forall i :: 0 <= i < SpaceRun(s) ==> Text.IsSpace(s[i])
    decreases |s|
  {
    if |s| > 0 && Text.IsSpace(s[0]) {
      SpaceRunSpaces(s[1..]);
      forall i | 1 <= i < SpaceRun(s) ensures Text.IsSpace(s[i]) {
        assert s[i] == s[1..][i - 1];
      }
    }
  }

  /** What `MeridiemAfter` consumes is whitespace followed by AM or PM. */
  lemma MeridiemSpelling(u: string)
    ensures MeridiemAfter(u).Some? ==> MeridiemSpell(u[..MeridiemAfter(u).value.1], MeridiemAfter(u).value.0)
  {
    SpaceRunSpaces(u);
  }

  /**
   * `hh:mm AM` with the colon at `j` and `m` minute digits: the hour's digits
   * (1 to 12), `:`, the minute's digits, whitespace, AM or PM; `c` is the
   * hour converted by `To24Hour` with that minute.
   */
  predicate ClockSpelledAt(t: string, c: Clock, j: int, m: int) {
    && 1 <= j <= 2 && 1 <= m <= 2 && j + 1 + m <= |t| && t[j] == ':'
    && Decimal.AllDigits(t[..j]) && 1 <= Decimal.DigitsValue(t[..j]) <= 12
    && DigitsSpell(t[j + 1..j + 1 + m], c.minute)
    && var pm := Text.LowerChar(t[|t| - 2]) == 'p';
       MeridiemSpell(t[j + 1 + m..], pm) && c.hour == To24Hour(Decimal.DigitsValue(t[..j]), pm)
  }

  /** `t` spells `c` with a one- or two-digit hour and minute and nothing after AM/PM. */
  predicate SpellsClock(t: string, c: Clock) {
    ClockSpelledAt(t, c, 1, 1) || ClockSpelledAt(t, c, 1, 2) || ClockSpelledAt(t, c, 2, 1) || ClockSpelledAt(t, c, 2, 2)
  }

  /**
   * Only the `%I:%M %p` shape is accepted: an accepted text is the hour's
   * digits, `:`, the minute's digits, whitespace and AM or PM, with nothing
   * left over, and reads as that hour on the 24-hour clock.
   */
  lemma ParseClockSpelling(t: string)
    ensures ParseClock(t).Some? ==> SpellsClock(t, ParseClock(t).value)
  {
    TwelveAlternativesSpell(t);
    SpellingAfterFirstHour(TwelveAlternatives(t), t);
  }

  /** The same, for any hour alternatives that read the digits they cover. */
  lemma SpellingAfterFirstHour(alts: seq<Match>, t: string)
    requires forall m :: m in alts ==> m.len <= |t| && DigitsSpell(t[..m.len], m.value)
    ensures ClockAfterFirstHour(alts, t).Some? ==> SpellsClock(t, ClockAfterFirstHour(alts, t).value)
  {
    if FirstHour(alts, t).Some? {
      var hour := FirstHour(alts, t).value;
      if ClockAfterHour(hour.value, t[hour.len + 1..]).Some? {
        SpellingAfterHour(t, hour, ClockAfterHour(hour.value, t[hour.len + 1..]).value);
      }
    }
  }

  /** A time that `ClockAfterHour` reads after a spelled hour group is spelled in full. */
  lemma SpellingAfterHour(t: string, hour: Match, c: Clock)
    requires hour.len < |t| && t[hour.len] == ':' && DigitsSpell(t[..hour.len], hour.value)
    requires ClockAfterHour(hour.value, t[hour.len + 1..]) == Some(c)
    ensures SpellsClock(t, c)
  {
    var rest := t[hour.len + 1..];
    ClockAfterHourSpelling(hour.value, rest, c);
    ClockSpelledAfterColon(t, rest, c, hour.len, hour.value, MinuteAfter(rest).value.len);
  }

  /** The pieces either side of the colon at `j`, put together. */
  lemma ClockSpelledAfterColon(t: string, rest: string, c: Clock, j: int, hour12: int, m: int)
    requires 1 <= j <= 2 && j < |t| && t[j] == ':' && rest == t[j + 1..]
    requires DigitsSpell(t[..j], hour12) && 1 <= hour12 <= 12
    requires && 1 <= m <= 2 && m + 3 <= |rest|
             && DigitsSpell(rest[..m], c.minute)
             && var pm := Text.LowerChar(rest[|rest| - 2]) == 'p';
                MeridiemSpell(rest[m..], pm) && c.hour == To24Hour(hour12, pm)
    ensures ClockSpelledAt(t, c, j, m) && SpellsClock(t, c)
  {
    assert t[j + 1..j + 1 + m] == rest[..m];
    assert t[j + 1 + m..] == rest[m..];
    assert t[|t| - 2] == rest[|rest| - 2];
  }

  /**
   * What `ClockAfterHour` accepts is the minute's digits, whitespace and AM
   * or PM, and it reads as the hour on the 24-hour clock with that minute.
   */
  lemma ClockAfterHourSpelling(hour12: int, rest: string, c: Clock)
    requires ClockAfterHour(hour12, rest) == Some(c)
    ensures 1 <= hour12 <= 12 && MinuteAfter(rest).Some?
    ensures var m := MinuteAfter(rest).value.len;
            && 1 <= m <= 2 && m + 3 <= |rest|
            && DigitsSpell(rest[..m], c.minute)
            && var pm := Text.LowerChar(rest[|rest| - 2]) == 'p';
               MeridiemSpell(rest[m..], pm) && c.hour == To24Hour(hour12, pm)
  {
    ClockAfterHourParts(hour12, rest, c);
    var minute := MinuteAfter(rest).value;
    MinuteAlternativesSpell(rest);
    MinuteAndMeridiemSpelling(rest, minute);
  }

  /** How `ClockAfterHour` read `c`: the minute group, then AM/PM ending the text. */
  lemma ClockAfterHourParts(hour12: int, rest: string, c: Clock)
    requires ClockAfterHour(hour12, rest) == Some(c)
    ensures 1 <= hour12 <= 12 && MinuteAfter(rest).Some?
    ensures var m := MinuteAfter(rest).value;
            var u := rest[m.len..];
            && m in MinuteAlternatives(rest) && MeridiemAfter(u).Some?
            && m.len + MeridiemAfter(u).value.1 == |rest|
            && c == Clock(To24Hour(hour12, MeridiemAfter(u).value.0), m.value)
  {
  }

  /** A minute group spelled by its digits, then AM/PM filling the rest, spelled as such. */
  lemma MinuteAndMeridiemSpelling(rest: string, m: Match)
    requires m.len <= |rest| && DigitsSpell(rest[..m.len], m.value)
    requires MeridiemAfter(rest[m.len..]).Some? && m.len + MeridiemAfter(rest[m.len..]).value.1 == |rest|
    ensures m.len + 3 <= |rest|
    ensures var pm := MeridiemAfter(rest[m.len..]).value.0;
            MeridiemSpell(rest[m.len..], pm) && pm == (Text.LowerChar(rest[|rest| - 2]) == 'p')
  {
    var u := rest[m.len..];
    MeridiemSpelling(u);
    assert u[..MeridiemAfter(u).value.1] == u;
    assert rest[|rest| - 2] == u[|u| - 2];
  }

  /** Text after a well-formed time is "unconverted data": the time is refused. */
  lemma ParseClockRejectsTrailing(c: Clock, x: string)
    requires 0 <= c.hour < 24 && 0 <= c.minute < 60 && |x| > 0
    ensures ParseClock(FormatClock(c) + x).None?
  {
    var f := FormatClock(c);
    var t := f + x;
    assert t[1] == f[1] && t[2] == f[2] && t[4] == f[4] && t[6] == f[6];
    assert Decimal.IsDigit(f[1]) && Decimal.IsDigit(f[4]) && f[6] in "AP";
    ParseClockRejectsLong(t);
  }

  /** A text with a time's first eight characters and more after them is refused. */
  lemma ParseClockRejectsLong(t: string)
    requires |t| > 8 && t[1] != ':' && t[2] == ':' && !Text.IsSpace(t[4]) && !Text.IsSpace(t[6])
    ensures ParseClock(t).None?
  {
    ParseClockSpelling(t);
    if ParseClock(t).Some? {
      LongClockTextNotSpelled(t, ParseClock(t).value);
    }
  }

  /** `hh:mm AM` followed by more text spells no time: AM/PM must end the text. */
  lemma LongClockTextNotSpelled(t: string, c: Clock)
    requires |t| > 8 && t[1] != ':' && t[2] == ':' && !Text.IsSpace(t[4]) && !Text.IsSpace(t[6])
    ensures !SpellsClock(t, c)
  {
    assert t[2..][2] == t[4] && t[3..][1] == t[4] && t[4..][0] == t[4];
    assert t[5..][1] == t[6];
  }


  /**
   * A real date written `YYYY-MM-DD` with a time of day written `hh:mm AM`
   * or `hh:mm PM` is scheduled at that date, hour and minute, second 0.
   */
  lemma ParseScheduledAtRoundTrip(d: Date, c: Clock)
    requires ValidDate(d) && 0 <= c.hour < 24 && 0 <= c.minute < 60
    ensures ParseScheduledAt(FormatDate(d), FormatClock(c)) == Success(DateTime(d.year, d.month, d.day, c.hour, c.minute, 0))
  {
    ParseDateRoundTrip(d);
    var t := FormatClock(c);
    assert !Text.IsSpace(t[0]) && !Text.IsSpace(t[|t| - 1]);
    Text.StripUnchanged(t);
    ParseClockRoundTrip(c);
  }

  /** The time string is stripped before parsing; a stripped time of day parses the same. */
  lemma ParseScheduledAtStripsTime(date: string, time: string)
    ensures ParseScheduledAt(date, time) == ParseScheduledAt(date, Text.Strip(time))
  {
    Text.StripIdempotent(time);
  }

  /** `LawyerSession` as `book_session` creates it. */
  datatype LawyerSession = LawyerSession(userId: string, topic: string, scheduledAt: DateTime, notes: Option<string>, status: string)

  /**
   * `book_session`: the topic is stripped, notes are stripped when present
   * and non-empty and stored as `None` otherwise, and every new session is
   * pending.
   */
  function BookSession(userId: string, topic: string, date: string, time: string, notes: Option<string>)
    : (r: Result<LawyerSession, HttpError>)
    ensures r.Failure? <==> ParseScheduledAt(date, time).Failure?
    ensures r.Failure? ==> r.error == ParseScheduledAt(date, time).error
    ensures r.Success? ==>
      && r.value.userId == userId
      && r.value.status == "pending"
      && r.value.topic == Text.Strip(topic)
      && r.value.scheduledAt == ParseScheduledAt(date, time).value
      && (notes == None || notes == Some("") <==> r.value.notes == None)
    ensures r.Success? && notes.Some? && notes.value != "" ==> r.value.notes == Some(Text.Strip(notes.value))
  {
    match ParseScheduledAt(date, time)
    case Failure(e) => Failure(e)
    case Success(at) =>
      var kept := if notes.Some? && notes.value != "" then Some(Text.Strip(notes.value)) else None;
      Success(LawyerSession(userId, Text.Strip(topic), at, kept, "pending"))
  }

  /** Notes made of whitespace are present, so they are kept, as the empty string. */
  lemma BookSessionBlankNotes(userId: string, topic: string, date: string, time: string, notes: string)
    requires |notes| > 0 && Text.AllSpace(notes)
    requires ParseScheduledAt(date, time).Success?
    ensures BookSession(userId, topic, date, time, Some(notes)).value.notes == Some("")
  {
    Text.StripEmptyIff(notes);
  }
}

=== FILE: text.dfy ===
/**
 * The Python string primitives the routers and the RAG store rely on:
 * `str.isspace`, `str.strip`, `str.lower` (ASCII letters only), `startswith`,
 * `endswith`, the substring test `p in t` and single-character `replace`.
 */
module Text {

  /**
   * Python's `str.isspace()`; the regex class `\s` on `str` patterns matches
   * exactly these code points as well.
   */
  predicate IsSpace(c: char) {
    var n := c as int;
    (0x09 <= n <= 0x0D) || (0x1C <= n <= 0x20) || n == 0x85 || n == 0xA0 || n == 0x1680
    || (0x2000 <= n <= 0x200A) || n == 0x2028 || n == 0x2029 || n == 0x202F
    || n == 0x205F || n == 0x3000
  }

  predicate AllSpace(s: string) {
    forall i :: 0 <= i < |s| ==> IsSpace(s[i])
  }

  /** `s.lstrip()`: drops the leading whitespace and nothing else. */
  function StripStart(s: string): (r: string)
    ensures |r| <= |s| && r == s[|s| - |r|..]
    ensures AllSpace(s[..|s| - |r|])
    ensures r == [] || !IsSpace(r[0])
    decreases |s|
  {
    if |s| > 0 && IsSpace(s[0]) then StripStart(s[1..]) else s
  }

  /** `s.rstrip()`: drops the trailing whitespace and nothing else. */
  function StripEnd(s: string): (r: string)
    ensures |r| <= |s| && r == s[..|r|]
    ensures AllSpace(s[|r|..])
    ensures r == [] || !IsSpace(r[|r| - 1])
    decreases |s|
  {
    if |s| > 0 && IsSpace(s[|s| - 1]) then
      var r := StripEnd(s[..|s| - 1]);
      assert forall i :: |r| <= i < |s| - 1 ==> s[i] == s[..|s| - 1][i];
      r
    else s
  }

  /**
   * `s.strip()`: the unique infix of `s` that neither starts nor ends with
   * whitespace and is surrounded by whitespace only.
   */
  function Strip(s: string): (r: string)
    ensures exists i, j :: IsStripCut(s, i, j) && r == s[i..j]
    ensures r == [] || (!IsSpace(r[0]) && !IsSpace(r[|r| - 1]))
  {
    var a := StripStart(s);
    var r := StripEnd(a);
    assert IsStripCut(s, |s| - |a|, |s| - |a| + |r|);
    r
  }

  /** `s[i..j]` is what is left when only whitespace is cut from both ends. */
  ghost predicate IsStripCut(s: string, i: int, j: int) {
    0 <= i <= j <= |s| && AllSpace(s[..i]) && AllSpace(s[j..])
  }

  /** Stripping a stripped string changes nothing. */
  lemma StripIdempotent(s: string)
    ensures Strip(Strip(s)) == Strip(s)
  {
    StripUnchanged(Strip(s));
  }

  /** A string that neither starts nor ends with whitespace is its own strip. */
  lemma StripUnchanged(s: string)
    requires s == [] || (!IsSpace(s[0]) && !IsSpace(s[|s| - 1]))
    ensures Strip(s) == s
  {
  }

  /** Exactly the all-whitespace strings strip to the empty string. */
  lemma StripEmptyIff(s: string)
    ensures Strip(s) == [] <==> AllSpace(s)
  {
    if AllSpace(s) {
      AllSpaceStripsToEmpty(s);
    }
  }

  lemma {:induction false} AllSpaceStripsToEmpty(s: string)
    requires AllSpace(s)
    ensures StripStart(s) == []
    ensures Strip(s) == []
    decreases |s|
  {
    if |s| > 0 {
      AllSpaceStripsToEmpty(s[1..]);
    }
  }

  /** Python's `str.lower()` on the ASCII letters. */
  function LowerChar(c: char): char {
    if 'A' <= c <= 'Z' then (c as int + 32) as char else c
  }

  function Lower(s: string): (r: string)
    ensures |r| == |s|
    ensures forall i :: 0 <= i < |s| ==> r[i] == LowerChar(s[i])
  {
    seq(|s|, i requires 0 <= i < |s| => LowerChar(s[i]))
  }

  predicate StartsWith(s: string, prefix: string) {
    |prefix| <= |s| && s[..|prefix|] == prefix
  }

  predicate EndsWith(s: string, suffix: string) {
    |suffix| <= |s| && s[|s| - |suffix|..] == suffix
  }

  /** Python's `p in t` for strings: `p` occurs in `t` at some position. */
  predicate Contains(t: string, p: string) {
    exists i :: 0 <= i <= |t| - |p| && OccursAt(t, p, i)
  }

  predicate OccursAt(t: string, p: string, i: int) {
    0 <= i <= |t| - |p| && t[i..i + |p|] == p
  }

  /** `s.replace(a, b)` for one-character `a` and `b`. */
  function ReplaceChar(s: string, a: char, b: char): (r: string)
    ensures |r| == |s|
    ensures forall i :: 0 <= i < |s| ==> r[i] == if s[i] == a then b else s[i]
  {
    seq(|s|, i requires 0 <= i < |s| => if s[i] == a then b else s[i])
  }
}

=== FILE: wrappers.dfy ===
/** Failure-carrying result types shared by the whole model. */
module Wrappers {

  /** Python's `None` / a present value. */
  datatype Option<+T> = None | Some(value: T) {

    /** `x or default` for a value that is falsy only when absent. */
    function GetOr(default: T): T {
      match this
      case Some(v) => v
      case None => default
    }
  }

  /** A computed value, or the error the source raises instead. */
  datatype Result<+T, +E> = Success(value: T) | Failure(error: E)
}
